=== FILE: README.md ===
# Sensor daemon tick lifecycle

A Dafny model of the decision logic with which Dagster's sensor daemon
(`dagster/_daemon/sensor.py`) runs one tick of one sensor, with proofs of what
that logic promises.

The pass over a sensor goes like this:

1. Reload the sensor's persisted instigator state. A sensor still inside its
   minimum interval is left alone.
2. Otherwise mark the state for the tick and choose the tick to evaluate:
   - resume an interrupted STARTED tick;
   - move a dangling STARTED tick to SKIPPED and start afresh;
   - retry a FAILURE tick;
   - or create a fresh STARTED tick.
3. Inside the launch context, do one of two things:
   - resubmit the tick's outstanding run requests;
   - or evaluate the sensor: apply its dynamic-partitions requests, then react
     to run events or reserve run ids for its run requests, write them, and
     submit them (skip, reuse or create each run).
4. Leave the context. This marks the tick on an exception and writes the tick
   back, and for a finished tick also the sensor state (cursor, last run key,
   timestamps).

Modelling choices:

- Ticks, sensor state, runs and requests are immutable datatypes (`records.dfy`).
- Storage is a value:
  - one sensor's ticks are a sequence, where a tick's id is its index and the
    newest tick is last;
  - the stored state is an `Option`;
  - dynamic partitions are a set of (definition, key) pairs;
  - runs are a sequence in the order run storage returns them, newest first.
- Timestamps are whole seconds (`nat`). The wall clock is a parameter: `now`
  is the tick's evaluation time, and `clock` is the time read when a tick or
  state is stamped.
- Python truthiness is explicit:
  - an optional number that is unset or `0` counts as not set (`IsSetNum`);
  - an optional string that is unset or `""` counts as not set (`IsSetStr`).

Tick helpers that `sensor.py` calls but that live in `dagster/_core/scheduler/instigation.py`
are defined from the way `sensor.py` uses them. `dagster/_core/scheduler/instigation.py`
is not part of this model, so these definitions are assumptions:

- `with_status` (`Records.WithStatus`):
  - sets the status;
  - replaces the error, clearing it when none is given;
  - replaces the timestamp or failure count only when one is given;
  - stamps the end time with the clock for a finished status, and clears it for STARTED.
- `with_run_info` (`Records.WithRunInfo`): appends a set run id or run key that
  is not already recorded.
- `unsubmitted_run_ids_with_requests` (`Records.Unsubmitted`): the (reserved
  run id, request) pairs whose run id the tick has not recorded yet.

`SensorLaunchContext._write` reads `state.instigator_data.last_tick_start_timestamp`
at line 233 without the guard used on lines 220-227. It therefore raises when
the stored state has no sensor data. `LaunchContext.Write` models this as-written
behaviour as a `crashed` outcome: the tick is already written and the state is
not. `TickLifecycle.ProcessTick` proves that this crash never happens in a daemon
pass, because `mark_sensor_state_for_tick` always stores sensor data first.

Modules, in dependency order:

- `Records`
- `SensorState`
- `TickSelection`
- `LaunchContext`
- `DynamicPartitions`
- `RunTriage`
- `Submission`
- `Evaluation`
- `TickLifecycle`

## Model

| member | source | states |
|---|---|---|
| `SensorState.IsUnderMinInterval` | python_modules/dagster/dagster/_daemon/sensor.py:1189-1204 | The sensor is gated iff it has sensor data, a non-zero minimum interval, and some recorded tick time (last tick or last tick start, unset or zero ignored) less than the interval before now. So it is never gated without data, without any tick time, or without an interval. |
| `SensorState.MarkSensorStateForTick` | python_modules/dagster/dagster/_daemon/sensor.py:644-668 | The marked state keeps its status. It sets the tick start time to now and clears the success time. It takes the interval and sensor type from the definition. It keeps the last tick time, last run key, cursor and sensor start time, all of which are unset when there was no data. |
| `SensorState.MarkIsIdempotent` | python_modules/dagster/dagster/_daemon/sensor.py:644-668 | Marking twice at the same time gives the same state as marking once. |
| `SensorState.MarkedSensorIsGated` | python_modules/dagster/dagster/_daemon/sensor.py:1200-1204 | After marking at a non-zero time, the sensor is gated exactly while less than an interval has passed since the later of the mark and the last tick time. In particular it is gated for a full interval after the mark. |
| `TickSelection.GetEvaluationTick` | python_modules/dagster/dagster/_daemon/sensor.py:483-558 | The chosen tick is STARTED and is the newest stored tick. A recorded success time means the previous tick is not consulted. A STARTED previous tick with outstanding work, at most a day old, is returned unchanged and the store is untouched. Any other STARTED previous tick is rewritten to SKIPPED and a fresh tick is added. A FAILURE tick with failure count at most 1 and outstanding work is retried as a copy restarted at now with error and end time cleared. In every other case a fresh tick is added. |
| `TickSelection.NoDanglingStartedTicks` | python_modules/dagster/dagster/_daemon/sensor.py:522-531 | If only the newest stored tick may be STARTED, and a recorded success implies that tick is finished, then after the choice every stored tick except the chosen one is finished. |
| `TickSelection.EvaluationTickWork` | python_modules/dagster/dagster/_daemon/sensor.py:505-546 | The chosen tick has outstanding run requests iff the previous tick was resumed or retried. A retried tick carries exactly the failed tick's outstanding work. |
| `TickSelection.KeepsTickHistory` | python_modules/dagster/dagster/_daemon/sensor.py:528-531 | Choosing a tick adds at most one tick. It changes no stored tick except a STARTED newest one, which it only moves to SKIPPED. |
| `LaunchContext.UpdateState` | python_modules/dagster/dagster/_daemon/sensor.py:148-173 | The status and error are always set, and the failure count only when given. Skip reason and cursor are replaced, and the origin run appended, only when they are set and non-empty. Run ids, run keys and outstanding work are unchanged. |
| `LaunchContext.UpdateStateIsIdempotent` | python_modules/dagster/dagster/_daemon/sensor.py:148-173 | Applying an update without an origin run twice is the same as applying it once. |
| `LaunchContext.AddRunInfo` | python_modules/dagster/dagster/_daemon/sensor.py:175-176 | The tick's run ids and run keys are the old ones plus the given id and key when set. Nothing is lost and the status is kept. |
| `LaunchContext.AddPartitionsResult` | python_modules/dagster/dagster/_daemon/sensor.py:181-186 | The result is appended to the tick's partition results, and nothing else changes. |
| `LaunchContext.Write` | python_modules/dagster/dagster/_daemon/sensor.py:204-250 | The tick is always written. For an unfinished tick nothing else changes. Without stored sensor data the write raises and leaves the state alone. For a finished tick, the state gets the tick time as last tick time. It gets the tick's cursor and last run key unless the tick failed without asking to advance them, in which case the stored values stay. Its start time is the larger of the tick time and the stored start time, so it never decreases. Interval and type come from the definition. The success time is the clock unless the tick failed. |
| `LaunchContext.WriteIsIdempotent` | python_modules/dagster/dagster/_daemon/sensor.py:204-250 | Writing the same context twice at the same clock leaves storage as one write did. |
| `LaunchContext.WrittenTickGatesSensor` | python_modules/dagster/dagster/_daemon/sensor.py:231-242 | A finished tick with a non-zero time, written over stored sensor data, does not raise. It leaves the sensor gated until a full interval after the tick's time. |
| `LaunchContext.FailureKeepsCursor` | python_modules/dagster/dagster/_daemon/sensor.py:210-229 | A FAILURE tick that does not ask to advance the cursor leaves the stored cursor and last run key unchanged, and clears the success time. |
| `LaunchContext.SetRunRequests` | python_modules/dagster/dagster/_daemon/sensor.py:191-202 | The tick takes the run requests, reserved ids and cursor, keeping all else, and is written immediately. |
| `LaunchContext.Exit` | python_modules/dagster/dagster/_daemon/sensor.py:255-288 | A keyboard interrupt writes nothing. Every other exit writes the final context. A generator exit, or no exception, leaves the tick as it was. Any other exception marks the tick FAILURE with that error, keeping the cursor and outstanding work. An unreachable code server or failed location load keeps the failure count; anything else adds one. |
| `DynamicPartitions.Existing` | python_modules/dagster/dagster/_daemon/sensor.py:880-886 | The existing keys are exactly the request's keys stored under the definition, and are no more than the request's keys. |
| `DynamicPartitions.Missing` | python_modules/dagster/dagster/_daemon/sensor.py:880-886 | The missing keys are exactly the request's keys not stored under the definition. |
| `DynamicPartitions.ExistingAndMissingSplitKeys` | python_modules/dagster/dagster/_daemon/sensor.py:882-886 | The request's keys are an order-preserving interleaving of the existing and missing keys, and the two multisets add up to the keys' multiset. |
| `DynamicPartitions.ApplyRequest` | python_modules/dagster/dagster/_daemon/sensor.py:888-939 | An add request adds exactly the missing keys and reports them as added, with the existing keys skipped. A delete request deletes exactly the existing keys and reports them as deleted, with the missing keys skipped. |
| `DynamicPartitions.RequestEffect` | python_modules/dagster/dagster/_daemon/sensor.py:888-923 | After an add every requested key exists, and after a delete none does. No other partition changes. |
| `DynamicPartitions.RepeatedRequestIsSkipped` | python_modules/dagster/dagster/_daemon/sensor.py:879-939 | Repeating a request changes storage no further. The repeat reports every key as skipped and nothing as added or deleted. |
| `DynamicPartitions.HandleRequests` | python_modules/dagster/dagster/_daemon/sensor.py:879-941 | The loop gives one result per request, in order, each for its request's definition. It equals applying the requests one after another, each seeing the earlier ones' effect. |
| `RunTriage.RequestedRunKeys` | python_modules/dagster/dagster/_daemon/sensor.py:1212 | The queried run keys are exactly the requests' non-empty run keys. |
| `RunTriage.FetchExistingRunsFindsLastSensorRun` | python_modules/dagster/dagster/_daemon/sensor.py:1207-1252 | The fetched map has no entry for a missing run key. A run key is in it iff it is requested and some stored run is tagged with it and belongs to this sensor (same sensor name, same repository when the run has an origin). Its value is the last such run in storage order. |
| `RunTriage.GetOrCreateSensorRun` | python_modules/dagster/dagster/_daemon/sensor.py:1255-1284 | The run is looked up by run key among the fetched runs, else by reserved id. A found run that left NOT_STARTED means the request is skipped, reporting its run key. A found NOT_STARTED run is reused. With no run found, a NOT_STARTED run under the reserved id is created and stored. Only creation changes storage. |
| `RunTriage.ResubmissionReusesRun` | python_modules/dagster/dagster/_daemon/sensor.py:1266-1278 | Deciding the same request twice under the same reserved id creates at most one run. The second decision reuses the created run. |
| `RunTriage.CreatedRunIsFetchedAgain` | python_modules/dagster/dagster/_daemon/sensor.py:1310-1317 | A run created for a request with a run key carries the run-key and sensor tags, so the next fetch for that key finds it. |
| `RunTriage.ResolveRunRequests` | python_modules/dagster/dagster/_daemon/sensor.py:989-1020 | No more requests come out than went in. Every resolved request is tagged with the tick id and is no longer stale-only. |
| `RunTriage.ResolveIsFilterThenResolve` | python_modules/dagster/dagster/_daemon/sensor.py:997-1019 | Resolution is "drop, then resolve". A stale-only request with nothing stale is dropped. Every other request is kept in order under its reserved id, tagged with the tick, and narrowed to its stale assets when stale-only. |
| `Submission.SubmitOne` | python_modules/dagster/dagster/_daemon/sensor.py:677-737 | A backfill request is reported under its reserved id and touches no run. Any other request is skipped when its found run already left NOT_STARTED, with storage unchanged. When the found run is NOT_STARTED, that run is launched and only its status changes. Otherwise a new run under the reserved id is stored in front of the others and launched. A launched run takes the status the launch leaves it in. |
| `Submission.LaunchedRunIsSkippedWhenSubmittedAgain` | python_modules/dagster/dagster/_daemon/sensor.py:1266-1272 | When a launch moves a run out of NOT_STARTED, and the request's run key was not fetched, submitting the same pair again against the runs left behind skips it. The repeat reports the run key and changes no run. A skipped pair stays skipped. |
| `Submission.SubmitEach` | python_modules/dagster/dagster/_daemon/sensor.py:1107-1135 | There is one result per pair, in order. Each result records the pair's run key, or none for a backfill. |
| `Submission.SubmitEachInOrder` | python_modules/dagster/dagster/_daemon/sensor.py:1107-1116 | The result for each pair is that pair's submission against the runs the pairs before it left. Together with `Submission.SubmitOne` this fixes each outcome: skipped, launched under which id, or a backfill. |
| `Submission.SubmitEachKeeps` | python_modules/dagster/dagster/_daemon/sensor.py:1107-1116 | A pass keeps every stored run at its place, counted from the oldest. At most its status changes. |
| `Submission.SubmitRunRequests` | python_modules/dagster/dagster/_daemon/sensor.py:1077-1116 | There is one result per resolved pair, and no more results than the pairs given. |
| `Submission.SubmitRunRequestsKeeps` | python_modules/dagster/dagster/_daemon/sensor.py:1077-1116 | Submitting a tick's requests keeps every stored run at its place, counted from the oldest. At most its status changes. |
| `Submission.SubmittedPairsCanBeFound` | python_modules/dagster/dagster/_daemon/sensor.py:1266-1284 | After a pass, every non-backfill pair can be found again, by a run key fetched before the pass or by its reserved run id. |
| `Submission.CreatedRunsAreUnfound` | python_modules/dagster/dagster/_daemon/sensor.py:1262-1284 | A pass adds a run only for a non-backfill pair that was found neither by a fetched run key nor by its reserved id before the pass. Every added run carries such a pair's reserved id, and every stored run is kept. |
| `Submission.ResolvedMembers` | python_modules/dagster/dagster/_daemon/sensor.py:1005-1019 | A pair survives resolution iff its request is not dropped, and it then appears in resolved form. |
| `Submission.ResubmissionCreatesNoRun` | python_modules/dagster/dagster/_daemon/sensor.py:1262-1272 | A completed pass is followed by a second pass over any subset of its pairs, against the runs the first left, with staleness resolved afresh. The second pass keeps every run. It adds runs only under the reserved ids of stale-only requests that the first resolution dropped and the second keeps. When there are none, it adds no run. |
| `Submission.StaleOnlyRequestRunsOnceStale` | python_modules/dagster/dagster/_daemon/sensor.py:1004-1013 | The exception above does happen. A stale-only request with nothing stale is dropped by the first pass, which creates no run. Once one of its assets is stale, the second pass creates its run under the reserved id. |
| `Evaluation.RecordSubmissions` | python_modules/dagster/dagster/_daemon/sensor.py:1123-1135 | The tick's run ids become the old ones plus the ids of launched runs and backfills, and nothing for skipped runs. Its run keys become the old ones plus the keys of skipped and launched runs. Status, cursor and reserved work are kept. |
| `Evaluation.RecordedRunsAreNoLongerUnsubmitted` | python_modules/dagster/dagster/_daemon/sensor.py:1123-1135 | A pair still outstanding after recording was outstanding before, and its id is none of the recorded ids. |
| `Evaluation.FinishRequestedTick` | python_modules/dagster/dagster/_daemon/sensor.py:866-869 | The tick ends SUCCESS iff it recorded any run id, and SKIPPED otherwise. The cursor is taken when set, and the error is cleared. |
| `Evaluation.SuccessIffSomethingSubmitted` | python_modules/dagster/dagster/_daemon/sensor.py:866-869 | For a tick with no earlier run ids, it ends SUCCESS iff some submission launched a run or a backfill. A tick whose every request was skipped ends SKIPPED. |
| `Evaluation.SomeReactionFailed` | python_modules/dagster/dagster/_daemon/sensor.py:953-964 | True iff some reaction carries an error, which is when the daemon asks for the cursor to be stored on failure. |
| `Evaluation.ReactedRunIds` | python_modules/dagster/dagster/_daemon/sensor.py:965-985 | A run id is listed iff some reaction without an error names it and it is non-empty. Errored reactions contribute nothing. |
| `Evaluation.HandleRunReactions` | python_modules/dagster/dagster/_daemon/sensor.py:944-986 | The final status follows the last reaction: FAILURE if it errored, SUCCESS otherwise. The cursor-on-failure flag ends set iff it was set or some reaction errored (`SomeReactionFailed`). With a reaction, the cursor is taken when set. The origin runs become the old ones followed, in order, by the run ids of the successful reactions (`ReactedRunIds`), so an errored reaction records no origin run. Run ids, run keys, outstanding work and partition results are unchanged. |
| `Evaluation.FailedReactionStillAdvancesCursor` | python_modules/dagster/dagster/_daemon/sensor.py:958-965 | When the last reaction errored, the tick ends FAILURE, yet the state written for it takes the tick's cursor. |
| `Evaluation.FinishUnrequested` | python_modules/dagster/dagster/_daemon/sensor.py:828-852 | A tick with no run requests ends finished, with the partition results appended and run ids and keys unchanged. Its cursor is the returned one when set. With run reactions it is exactly the outcome of handling them (status by the last reaction, the cursor-on-failure flag iff some reaction errored, origin runs iff a reaction without an error names them). Without, it is SKIPPED, with the skip message when set. |
| `Evaluation.ReserveAndSubmit` | python_modules/dagster/dagster/_daemon/sensor.py:853-869 | A tick with run requests is stored STARTED with its reserved ids and requests, and no other tick or the state changes. Then its reserved pairs are submitted. Its runs are what the submission leaves, and its run ids and keys grow by exactly what the results record. It ends SUCCESS iff it holds a run id, with the returned cursor. |
| `Evaluation.EvaluateSensor` | python_modules/dagster/dagster/_daemon/sensor.py:786-869 | Given one reserved id per run request: partition requests are applied in order, and their results are appended to the tick's. The tick always ends finished, and every stored run is kept. Without run requests or automation evaluations, storage, run ids and run keys are untouched. Its cursor is the returned one when set, else the tick's own. Without run reactions the tick is SKIPPED, with the skip message when one is set. With run reactions the tick is exactly what handling them gives: FAILURE if the last reaction errored and SUCCESS otherwise; the cursor-on-failure flag set iff it was or some reaction errored; origin runs the old ones plus exactly the non-empty run ids of the reactions without an error. With them, the tick is stored STARTED with its requests reserved before submission, and its cursor is the returned one. Its runs are those the submission of the reserved pairs leaves. Its run ids and run keys become the old ones plus exactly those the submission results record. It ends SUCCESS iff it holds a run id, so a fresh tick ends SUCCESS iff a submitted run or backfill recorded its id. No other tick changes. |
| `Evaluation.ResumeTick` | python_modules/dagster/dagster/_daemon/sensor.py:740-773 | A resumed tick resubmits exactly its outstanding pairs. Its run ids and run keys become the old ones plus exactly those the submission results record, so no id is recorded that was not launched or backfilled. It ends SUCCESS with its cursor and partition results unchanged. Every stored run is kept. |
| `TickLifecycle.HeldBlock` | python_modules/dagster/dagster/_daemon/sensor.py:602-623 | Given one reserved id per run request: with outstanding work the tick is resumed and ends SUCCESS, leaving the stored ticks, state and partitions alone. Otherwise the outcome is exactly the sensor's evaluation. An exception at the start leaves the tick and storage as they were. No tick but the held one changes, and every stored run is kept. |
| `TickLifecycle.ProcessTick` | python_modules/dagster/dagster/_daemon/sensor.py:561-633 | Given one reserved id per run request (as the daemon reserves them): without a stored state, or under the minimum interval, nothing changes. Otherwise one tick is held: the tick chosen from the state as it was before marking, and it is the newest stored tick. The runs and partitions after the pass are exactly those the held block leaves for that tick and the given inputs. Without an exception, the returned tick's data is exactly the held block's outcome. The state keeps its status and has sensor data, so the write never raises. Unless interrupted, the stored tick is the final tick. Without an exception the tick finishes, and with an error it is FAILURE. An unfinished tick leaves the state as marked. A finished tick is written into the state: its time becomes the last tick time, the success time is the clock unless it failed, and unless it failed its cursor is stored. |
| `TickLifecycle.ProcessTickKeepsConsistency` | python_modules/dagster/dagster/_daemon/sensor.py:561-633 | Given one reserved id per run request (as the daemon reserves them): every pass preserves two facts: only the newest stored tick may be STARTED, and a recorded success time means the newest tick is finished. This holds whatever the evaluation, submission and exceptions do. |
| `TickLifecycle.SensorNeverTicksTwiceWithinInterval` | python_modules/dagster/dagster/_daemon/sensor.py:578-582 | Given one reserved id per run request (as the daemon reserves them): after a pass that held a tick at a non-zero time, the sensor is gated for a full interval, and a pass inside that interval changes nothing. |
| `TickLifecycle.InterruptedSubmissionIsResumed` | python_modules/dagster/dagster/_daemon/sensor.py:1056-1060 | A tick whose reserved requests were written, and which then died, is what the next choice within a day returns, with the same work. |
| `TickLifecycle.FailedTickIsRetried` | python_modules/dagster/dagster/_daemon/sensor.py:532-546 | After a tick with outstanding work exits on an error, the next choice carries outstanding work iff the new failure count is at most 1, and then exactly the same work. An unreachable server or failed location load never exhausts the retries. |
| `TickLifecycle.ResumedTickCreatesNoDuplicateRuns` | python_modules/dagster/dagster/_daemon/sensor.py:1262-1272 | Suppose a tick reserved and submitted its requests and died before recording them. Then the next tick is that tick. Resuming it, with staleness resolved afresh, keeps every run. It adds runs only under the reserved ids of stale-only requests the first pass dropped and the resume keeps. When there are none, it adds no run. |

## Left out

- The iteration loop, its threads and futures, heartbeats, and the sensor-list
  bookkeeping (sensor.py:301-456) are left out, because they are concurrency
  and scheduling concerns. `ProcessTick` models one pass over one sensor.
- Calls into code servers and other processes are left out. Their results
  become inputs:
  - the sensor's evaluation result (`RuntimeData`);
  - the reserved run and backfill ids;
  - the stale-asset resolution (`stale`);
  - the status a launch leaves a run in (`launched`);
  - the exception raised at the start of the held block.
- An exception raised part-way through the held block is not modelled. The
  modelled exception is raised before the block has changed anything, as
  when the code location fails to load at the start of the evaluation.
- Launching a run (`submit_run`) is left out because the run coordinator owns
  it. The status the launch leaves a run in is an input (`launched`), the same
  for every launch in a pass. A launch that fails (sensor.py:725-734) is not
  told apart from one that succeeds, as its error info is left out.
- The launch error info, asset events, log keys, logging, telemetry and debug
  crash flags are left out: they change no decision.
- Creating a run is reduced to the run's id, status, tags, origin repository
  and asset selection. Execution plans, snapshots and job tags come from code
  servers. The job's own tags are not merged.
- Backfill construction and storage (sensor.py:1167-1186) are left out. A
  backfill request is only reported under its reserved id.
- Auto-materialize evaluation persistence (sensor.py:1034-1046, 1119-1153) is
  left out. Automation evaluations only count as work to submit.
- Tick purging by retention (sensor.py:290-298) is left out.
- Thread-pool submission is modelled as sequential submission, in the order
  in which the source consumes the results.
- `ProcessTick`: the minimum-interval check reads the clock itself in the
  source. Here it uses the same `now` as the tick.
- A dynamic-partitions request that is neither an add nor a delete
  (sensor.py:940-941) cannot be represented: the request type has exactly
  these two cases.
- `ProcessTick`: a missing stored state makes the source raise at
  sensor.py:573-577, outside the try block. The model returns storage
  unchanged with no tick and `crashed` false; that exception is not
  represented.
- `_sensor_instigator_data` failing on non-sensor data cannot be represented:
  the state holds only sensor data.
- `RunTriage.ResolveRunRequests` only states the tick-id tag and that
  stale-only is cleared. The full content is stated by
  `RunTriage.ResolveIsFilterThenResolve`.
- `Submission.SubmitRunRequests` states only how many results there are. The
  pass's runs are stated by `Submission.SubmitRunRequestsKeeps`, and the
  no-duplicate property by `Submission.ResubmissionCreatesNoRun`.
- `Submission.SubmitEach` states only the run key each result records. The
  full result for each pair is stated by `Submission.SubmitEachInOrder`
  together with `Submission.SubmitOne`.
- `Submission.LaunchedRunIsSkippedWhenSubmittedAgain` is stated for one pair
  whose run key was not fetched. A pair found by a fetched run key is found
  as it was before the pass, so a second pass over it is covered only by
  `Submission.ResubmissionCreatesNoRun`, which bounds created runs rather
  than skipped launches.

=== FILE: evaluation.dfy ===
/**
 What happens inside a held tick: recording the outcome of each run
 submission, reacting to run-status events, and choosing the tick's final
 status, both for a fresh evaluation and for a resumed tick.
 */
module Evaluation {
  import opened Records
  import opened LaunchContext
  import opened Submission
  import DynamicPartitions
  import RunTriage

  /**
   Records each submission's run id and run key on the tick, in order.
   Afterwards the tick's run ids are the old ones followed by the new set ids.
   */
  function RecordSubmissions(ctx: Context, results: seq<SubmitResult>): (c: Context)
    ensures c.sensor == ctx.sensor && c.updateCursorOnFailure == ctx.updateCursorOnFailure
    ensures c.tick.id == ctx.tick.id
    ensures c.tick.data.status == ctx.tick.data.status && c.tick.data.cursor == ctx.tick.data.cursor
    ensures ctx.tick.data.runIds <= c.tick.data.runIds && ctx.tick.data.runKeys <= c.tick.data.runKeys
    ensures forall x :: x in c.tick.data.runIds <==>
      x in ctx.tick.data.runIds || exists i :: 0 <= i < |results| && IsSetStr(RecordedId(results[i])) && RecordedId(results[i]).value == x
    ensures forall x :: x in c.tick.data.runKeys <==>
      x in ctx.tick.data.runKeys || exists i :: 0 <= i < |results| && IsSetStr(RecordedKey(results[i])) && RecordedKey(results[i]).value == x
    ensures c.tick.data.(runIds := ctx.tick.data.runIds, runKeys := ctx.tick.data.runKeys) == ctx.tick.data
    decreases |results|
  {
    if |results| == 0 then ctx
    else
      var c := AddRunInfo(ctx, RecordedId(results[0]), RecordedKey(results[0]));
      assert forall i :: 1 <= i < |results| ==> results[i] == results[1..][i - 1];
      RecordSubmissions(c, results[1..])
  }

  /** Every reserved run whose submission recorded its id is no longer outstanding. */
  lemma RecordedRunsAreNoLongerUnsubmitted(ctx: Context, results: seq<SubmitResult>)
    ensures forall p :: p in Unsubmitted(RecordSubmissions(ctx, results).tick.data) ==>
      && p in Unsubmitted(ctx.tick.data)
      && forall i :: 0 <= i < |results| && IsSetStr(RecordedId(results[i])) ==> RecordedId(results[i]).value != p.0
  {
  }

  /** After the runs are submitted: SUCCESS when the tick recorded any run id, SKIPPED otherwise. */
  function FinishRequestedTick(ctx: Context, cursor: Option<string>, clock: nat): (c: Context)
    ensures c.tick.data.status == Success <==> |ctx.tick.data.runIds| > 0
    ensures c.tick.data.status == Skipped <==> |ctx.tick.data.runIds| == 0
    ensures c.tick.data.runIds == ctx.tick.data.runIds && c.tick.data.runKeys == ctx.tick.data.runKeys
    ensures c.tick.data.cursor == (if IsSetStr(cursor) then cursor else ctx.tick.data.cursor)
    ensures c.tick.data.error == None
  {
    if |ctx.tick.data.runIds| > 0 then UpdateState(ctx, Success, WithCursor(cursor), clock)
    else UpdateState(ctx, Skipped, WithCursor(cursor), clock)
  }

  /**
   A fresh tick whose every request was skipped (its run already launched)
   ends SKIPPED; one that launched a run or a backfill ends SUCCESS.
   */
  lemma {:induction false} SuccessIffSomethingSubmitted(ctx: Context, results: seq<SubmitResult>, cursor: Option<string>, clock: nat)
    requires ctx.tick.data.runIds == []
    ensures var c := FinishRequestedTick(RecordSubmissions(ctx, results), cursor, clock);
      c.tick.data.status == Success
      <==> exists i :: 0 <= i < |results| && IsSetStr(RecordedId(results[i]))
  {
    var c := RecordSubmissions(ctx, results);
    if exists i :: 0 <= i < |results| && IsSetStr(RecordedId(results[i])) {
      var i :| 0 <= i < |results| && IsSetStr(RecordedId(results[i]));
      assert RecordedId(results[i]).value in c.tick.data.runIds;
    }
    if |c.tick.data.runIds| > 0 {
      assert c.tick.data.runIds[0] in c.tick.data.runIds;
    }
  }

  /** A run-status event the sensor reacted to; `error` is set when the reaction failed. */
  datatype RunReaction = RunReaction(runId: string, error: Option<ErrorInfo>)

  /** Applies one reaction: FAILURE with the flag to store the cursor, or SUCCESS with the origin run recorded. */
  function React(ctx: Context, r: RunReaction, cursor: Option<string>, clock: nat): (c: Context)
    ensures c.tick.id == ctx.tick.id && c.sensor == ctx.sensor
    ensures c.tick.data.status == (if r.error.Some? then Failure else Success)
    ensures c.updateCursorOnFailure <==> ctx.updateCursorOnFailure || r.error.Some?
    ensures c.tick.data.cursor == (if IsSetStr(cursor) then cursor else ctx.tick.data.cursor)
    ensures c.tick.data.partitionsResults == ctx.tick.data.partitionsResults
    ensures c.tick.data.originRunIds
         == ctx.tick.data.originRunIds + (if r.error.None? && r.runId != "" then [r.runId] else [])
    ensures c.tick.data.runIds == ctx.tick.data.runIds && c.tick.data.runKeys == ctx.tick.data.runKeys
    ensures Unsubmitted(c.tick.data) == Unsubmitted(ctx.tick.data)
  {
    if r.error.Some?
    then UpdateState(ctx, Failure, WithCursor(cursor).(error := r.error), clock).(updateCursorOnFailure := true)
    else UpdateState(ctx, Success, WithCursor(cursor).(originRunId := Some(r.runId)), clock)
  }

  /** Whether some reaction reported an error. */
  function SomeReactionFailed(reactions: seq<RunReaction>): (b: bool)
    ensures b <==> exists i :: 0 <= i < |reactions| && reactions[i].error.Some?
    decreases |reactions|
  {
    if |reactions| == 0 then false
    else
      var rest := reactions[1..];
      assert forall i :: 1 <= i < |reactions| ==> reactions[i] == rest[i - 1];
      reactions[0].error.Some? || SomeReactionFailed(rest)
  }

  /** The run ids of the reactions that succeeded with a non-empty run id, in order. */
  function ReactedRunIds(reactions: seq<RunReaction>): (ids: seq<string>)
    ensures forall x :: x in ids <==>
      exists i :: 0 <= i < |reactions| && reactions[i].error.None? && reactions[i].runId != "" && reactions[i].runId == x
    decreases |reactions|
  {
    if |reactions| == 0 then []
    else
      var rest := reactions[1..];
      assert forall i :: 1 <= i < |reactions| ==> reactions[i] == rest[i - 1];
      (if reactions[0].error.None? && reactions[0].runId != "" then [reactions[0].runId] else [])
      + ReactedRunIds(rest)
  }

  lemma AppendAssociates<T>(a: seq<T>, b: seq<T>, c: seq<T>)
    ensures (a + b) + c == a + (b + c)
  {
  }

  /**
   Applies each reaction in turn: a failed one marks the tick FAILURE and asks
   for the cursor to be stored anyway (the reaction's side effects must not
   repeat); a successful one marks it SUCCESS and records the origin run.
   */
  function HandleRunReactions(ctx: Context, reactions: seq<RunReaction>, cursor: Option<string>, clock: nat)
    : (c: Context)
    ensures c.tick.id == ctx.tick.id && c.sensor == ctx.sensor
    ensures |reactions| == 0 ==> c == ctx
    ensures |reactions| > 0 ==>
      c.tick.data.status == (if reactions[|reactions| - 1].error.Some? then Failure else Success)
    ensures c.updateCursorOnFailure == (ctx.updateCursorOnFailure || SomeReactionFailed(reactions))
    ensures c.tick.data.cursor == (if |reactions| > 0 && IsSetStr(cursor) then cursor else ctx.tick.data.cursor)
    ensures c.tick.data.partitionsResults == ctx.tick.data.partitionsResults
    ensures c.tick.data.originRunIds == ctx.tick.data.originRunIds + ReactedRunIds(reactions)
    ensures c.tick.data.runIds == ctx.tick.data.runIds && c.tick.data.runKeys == ctx.tick.data.runKeys
    ensures Unsubmitted(c.tick.data) == Unsubmitted(ctx.tick.data)
    decreases |reactions|
  {
    if |reactions| == 0 then ctx
    else
      var c1 := React(ctx, reactions[0], cursor, clock);
      var rest := reactions[1..];
      var c := HandleRunReactions(c1, rest, cursor, clock);
      assert c.tick.data.originRunIds == ctx.tick.data.originRunIds + ReactedRunIds(reactions) by {
        var head := if reactions[0].error.None? && reactions[0].runId != "" then [reactions[0].runId] else [];
        assert ReactedRunIds(reactions) == head + ReactedRunIds(rest);
        assert c1.tick.data.originRunIds == ctx.tick.data.originRunIds + head;
        AppendAssociates(ctx.tick.data.originRunIds, head, ReactedRunIds(rest));
      }
      c
  }

  /**
   Even when the last reaction failed, the state written for the tick takes
   the tick's cursor, so a reaction is not repeated on the next tick.
   */
  lemma FailedReactionStillAdvancesCursor(inst: Instance, ctx: Context, reactions: seq<RunReaction>,
                                          cursor: Option<string>, clock: nat)
    requires |reactions| > 0 && reactions[|reactions| - 1].error.Some?
    requires inst.state.Some? && inst.state.value.data.Some?
    ensures var c := HandleRunReactions(ctx, reactions, cursor, clock);
      && c.tick.data.status == Failure
      && Write(inst, c, clock).inst.state.value.data.value.cursor == c.tick.data.cursor
  {
  }

  /** What the sensor's evaluation returned. */
  datatype RuntimeData = RuntimeData(
    runRequests: seq<RunRequest>,
    hasAutomationEvaluations: bool,
    reactions: seq<RunReaction>,
    skipMessage: Option<string>,
    cursor: Option<string>,
    partitionsRequests: seq<DynamicPartitions.PartitionsRequest>)

  /** The result of evaluating a sensor inside a held tick. */
  datatype Evaluated = Evaluated(ctx: Context, inst: Instance, partitions: DynamicPartitions.PartitionStore,
                                 runs: RunTriage.RunStore)

  /** Records one result per dynamic-partitions request on the tick, in order. */
  function AddPartitionsResults(ctx: Context, results: seq<PartitionsResult>): (c: Context)
    ensures c.tick.data == ctx.tick.data.(partitionsResults := ctx.tick.data.partitionsResults + results)
    ensures c.tick.id == ctx.tick.id && c.sensor == ctx.sensor && c.updateCursorOnFailure == ctx.updateCursorOnFailure
    decreases |results|
  {
    if |results| == 0 then
      assert ctx.tick.data.partitionsResults + results == ctx.tick.data.partitionsResults;
      ctx
    else
      var c := AddPartitionsResults(AddPartitionsResult(ctx, results[0]), results[1..]);
      assert ctx.tick.data.partitionsResults + [results[0]] + results[1..] == ctx.tick.data.partitionsResults + results;
      c
  }

  /**
   The tick's run ids and run keys after recording `results` are exactly those
   before, together with the set run ids and run keys the results record.
   */
  ghost predicate RecordsExactly(before: TickData, after: TickData, results: seq<SubmitResult>) {
    && (forall x :: x in after.runIds <==>
          x in before.runIds
          || exists i :: 0 <= i < |results| && IsSetStr(RecordedId(results[i])) && RecordedId(results[i]).value == x)
    && (forall x :: x in after.runKeys <==>
          x in before.runKeys
          || exists i :: 0 <= i < |results| && IsSetStr(RecordedKey(results[i])) && RecordedKey(results[i]).value == x)
  }

  /** The run store and the tick after submitting `pairs` for the tick and recording each outcome. */
  function SubmitAndRecord(ctx: Context, pairs: seq<(string, RunRequest)>, stale: RunRequest -> set<string>,
                           runs: RunTriage.RunStore, launched: RunStatus): (r: (Context, RunTriage.RunStore))
    ensures var (results, after) := SubmitRunRequests(pairs, TickIdString(ctx.tick.id), stale, runs, ctx.sensor, launched);
      && r.1 == after
      && r.0 == RecordSubmissions(ctx, results)
  {
    var (results, after) := SubmitRunRequests(pairs, TickIdString(ctx.tick.id), stale, runs, ctx.sensor, launched);
    (RecordSubmissions(ctx, results), after)
  }

  /**
   Submits a tick's reserved pairs, records each outcome and ends the tick:
   SUCCESS when it recorded a run id, SKIPPED otherwise.
   */
  function SubmitAndFinish(ctx: Context, pairs: seq<(string, RunRequest)>, stale: RunRequest -> set<string>,
                           runs: RunTriage.RunStore, launched: RunStatus, cursor: Option<string>, clock: nat)
    : (r: (Context, RunTriage.RunStore))
    ensures r.0.tick.id == ctx.tick.id && r.0.sensor == ctx.sensor
    ensures IsFinished(r.0.tick.data.status)
    ensures r.0.tick.data.cursor == (if IsSetStr(cursor) then cursor else ctx.tick.data.cursor)
    ensures r.0.tick.data.reservedRunIds == ctx.tick.data.reservedRunIds
    ensures r.0.tick.data.runRequests == ctx.tick.data.runRequests
    ensures r.0.tick.data.partitionsResults == ctx.tick.data.partitionsResults
    ensures RunTriage.Keeps(runs, r.1)
    ensures var (results, after) := SubmitRunRequests(pairs, TickIdString(ctx.tick.id), stale, runs, ctx.sensor, launched);
      && r.1 == after
      && RecordsExactly(ctx.tick.data, r.0.tick.data, results)
      && (r.0.tick.data.status == Success <==> |r.0.tick.data.runIds| > 0)
      && (ctx.tick.data.runIds == [] ==>
            (r.0.tick.data.status == Success
             <==> exists i :: 0 <= i < |results| && IsSetStr(RecordedId(results[i]))))
  {
    var (c, after) := SubmitAndRecord(ctx, pairs, stale, runs, launched);
    SubmitRunRequestsKeeps(pairs, TickIdString(ctx.tick.id), stale, runs, ctx.sensor, launched);
    var results := SubmitRunRequests(pairs, TickIdString(ctx.tick.id), stale, runs, ctx.sensor, launched).0;
    var fin := FinishRequestedTick(c, cursor, clock);
    assert ctx.tick.data.runIds == [] ==>
      (fin.tick.data.status == Success <==> exists i :: 0 <= i < |results| && IsSetStr(RecordedId(results[i]))) by {
      if ctx.tick.data.runIds == [] {
        SuccessIffSomethingSubmitted(ctx, results, cursor, clock);
      }
    }
    (fin, after)
  }

  /**
   Ends a tick without run requests, after recording its partition results:
   it reacts to the run events when there are any, and is SKIPPED otherwise,
   with the skip message when there is one.
   */
  function FinishUnrequested(ctx: Context, partResults: seq<PartitionsResult>, data: RuntimeData, clock: nat)
    : (c: Context)
    ensures c.tick.id == ctx.tick.id && c.sensor == ctx.sensor
    ensures IsFinished(c.tick.data.status)
    ensures c.tick.data.cursor == (if IsSetStr(data.cursor) then data.cursor else ctx.tick.data.cursor)
    ensures c.tick.data.partitionsResults == ctx.tick.data.partitionsResults + partResults
    ensures |data.reactions| == 0 ==> c.tick.data.status == Skipped
    ensures |data.reactions| == 0 && IsSetStr(data.skipMessage) ==> c.tick.data.skipReason == data.skipMessage
    ensures c.tick.data.runIds == ctx.tick.data.runIds && c.tick.data.runKeys == ctx.tick.data.runKeys
    ensures |data.reactions| > 0 ==>
      c == HandleRunReactions(AddPartitionsResults(ctx, partResults), data.reactions, data.cursor, clock)
    ensures |data.reactions| > 0 ==>
      var last := data.reactions[|data.reactions| - 1];
      && c.tick.data.status == (if last.error.Some? then Failure else Success)
      && (c.updateCursorOnFailure
          <==> ctx.updateCursorOnFailure || exists i :: 0 <= i < |data.reactions| && data.reactions[i].error.Some?)
      && (forall x :: x in c.tick.data.originRunIds <==>
            x in ctx.tick.data.originRunIds
            || exists i :: 0 <= i < |data.reactions| && data.reactions[i].error.None?
                           && data.reactions[i].runId != "" && data.reactions[i].runId == x)
  {
    var c0 := AddPartitionsResults(ctx, partResults);
    if |data.reactions| > 0 then HandleRunReactions(c0, data.reactions, data.cursor, clock)
    else if IsSetStr(data.skipMessage) then
      UpdateState(c0, Skipped, WithCursor(data.cursor).(skipReason := data.skipMessage), clock)
    else UpdateState(c0, Skipped, WithCursor(data.cursor), clock)
  }

  /**
   Handles a tick with run requests, after recording its partition results:
   reserves the requests under `reservedIds` and writes the tick, then submits
   the reserved pairs and ends the tick. Returns the tick, the instance after
   the write, and the runs after submission.
   */
  function ReserveAndSubmit(inst: Instance, ctx: Context, partResults: seq<PartitionsResult>, data: RuntimeData,
                            reservedIds: seq<string>, stale: RunRequest -> set<string>, runs: RunTriage.RunStore,
                            launched: RunStatus, clock: nat): (r: (Context, Instance, RunTriage.RunStore))
    requires ctx.tick.data.status == Started
    ensures r.0.tick.id == ctx.tick.id && r.0.sensor == ctx.sensor
    ensures IsFinished(r.0.tick.data.status)
    ensures r.0.tick.data.partitionsResults == ctx.tick.data.partitionsResults + partResults
    ensures |r.1.ticks| == |inst.ticks| && r.1.state == inst.state
    ensures forall i :: 0 <= i < |inst.ticks| && i != ctx.tick.id ==> r.1.ticks[i] == inst.ticks[i]
    ensures ctx.tick.id < |inst.ticks| ==>
      && r.1.ticks[ctx.tick.id].reservedRunIds == reservedIds
      && r.1.ticks[ctx.tick.id].runRequests == data.runRequests
      && r.1.ticks[ctx.tick.id].status == Started
    ensures RunTriage.Keeps(runs, r.2)
    ensures var (results, after) := SubmitRunRequests(ReservedWithRequests(reservedIds, data.runRequests),
                                                      TickIdString(ctx.tick.id), stale, runs, ctx.sensor, launched);
      && r.2 == after
      && RecordsExactly(ctx.tick.data, r.0.tick.data, results)
      && (r.0.tick.data.status == Success <==> |r.0.tick.data.runIds| > 0)
      && (ctx.tick.data.runIds == [] ==>
            (r.0.tick.data.status == Success
             <==> exists i :: 0 <= i < |results| && IsSetStr(RecordedId(results[i]))))
      && r.0.tick.data.cursor == data.cursor
      && r.0.tick.data.reservedRunIds == reservedIds
      && r.0.tick.data.runRequests == data.runRequests
  {
    var c0 := AddPartitionsResults(ctx, partResults);
    var pairs := ReservedWithRequests(reservedIds, data.runRequests);
    var (c1, w) := SetRunRequests(inst, c0, data.runRequests, reservedIds, data.cursor, clock);
    var (c2, after) := SubmitAndFinish(c1, pairs, stale, runs, launched, data.cursor, clock);
    (c2, w.inst, after)
  }

  /**
   Evaluates a sensor once its runtime data is in. Dynamic-partitions requests
   are applied first. Without run requests or automation evaluations the tick
   reacts to run events, or is SKIPPED (with the skip message when there is
   one). Otherwise the requests are reserved under `reservedIds`, one fresh id
   per request, and written before submission, then submitted against the
   stored `runs` (`stale` stands for the stale-asset resolution, `launched` for
   the status a launch leaves a run in), the outcomes recorded, and the tick
   ends SUCCESS when it recorded a run and SKIPPED otherwise.
   */
  function EvaluateSensor(inst: Instance, partitions: DynamicPartitions.PartitionStore, runs: RunTriage.RunStore,
                          ctx: Context, data: RuntimeData, reservedIds: seq<string>,
                          stale: RunRequest -> set<string>, launched: RunStatus, clock: nat): (r: Evaluated)
    requires ctx.tick.data.status == Started
    requires |reservedIds| == |data.runRequests|
    ensures |r.inst.ticks| == |inst.ticks|
    ensures r.ctx.tick.id == ctx.tick.id && r.ctx.sensor == ctx.sensor
    ensures r.partitions == DynamicPartitions.ApplyAll(partitions, data.partitionsRequests).0
    ensures r.ctx.tick.data.partitionsResults
         == ctx.tick.data.partitionsResults + DynamicPartitions.ApplyAll(partitions, data.partitionsRequests).1
    ensures r.inst.state == inst.state
    ensures forall i :: 0 <= i < |inst.ticks| && i != ctx.tick.id ==> r.inst.ticks[i] == inst.ticks[i]
    ensures RunTriage.Keeps(runs, r.runs)
    ensures IsFinished(r.ctx.tick.data.status)
    ensures |data.runRequests| == 0 && !data.hasAutomationEvaluations ==>
      && r.inst == inst && r.runs == runs
      && r.ctx.tick.data.cursor
         == (if IsSetStr(data.cursor) then data.cursor else ctx.tick.data.cursor)
      && (|data.reactions| == 0 ==> r.ctx.tick.data.status == Skipped)
      && (|data.reactions| == 0 && IsSetStr(data.skipMessage) ==> r.ctx.tick.data.skipReason == data.skipMessage)
      && r.ctx.tick.data.runIds == ctx.tick.data.runIds && r.ctx.tick.data.runKeys == ctx.tick.data.runKeys
      && (|data.reactions| > 0 ==>
            var last := data.reactions[|data.reactions| - 1];
            && r.ctx.tick.data.status == (if last.error.Some? then Failure else Success)
            && (r.ctx.updateCursorOnFailure
                <==> ctx.updateCursorOnFailure
                     || exists i :: 0 <= i < |data.reactions| && data.reactions[i].error.Some?)
            && (forall x :: x in r.ctx.tick.data.originRunIds <==>
                  x in ctx.tick.data.originRunIds
                  || exists i :: 0 <= i < |data.reactions| && data.reactions[i].error.None?
                                 && data.reactions[i].runId != "" && data.reactions[i].runId == x))
    ensures |data.runRequests| > 0 || data.hasAutomationEvaluations ==>
      var (results, after) := SubmitRunRequests(ReservedWithRequests(reservedIds, data.runRequests),
                                                TickIdString(ctx.tick.id), stale, runs, ctx.sensor, launched);
      && r.runs == after
      && RecordsExactly(ctx.tick.data, r.ctx.tick.data, results)
      && (r.ctx.tick.data.status == Success <==> |r.ctx.tick.data.runIds| > 0)
      && (ctx.tick.data.runIds == [] ==>
            (r.ctx.tick.data.status == Success
             <==> exists i :: 0 <= i < |results| && IsSetStr(RecordedId(results[i]))))
      && r.ctx.tick.data.cursor == data.cursor
      && r.ctx.tick.data.reservedRunIds == reservedIds
      && r.ctx.tick.data.runRequests == data.runRequests
      && (ctx.tick.id < |inst.ticks| ==>
            && r.inst.ticks[ctx.tick.id].reservedRunIds == reservedIds
            && r.inst.ticks[ctx.tick.id].runRequests == data.runRequests
            && r.inst.ticks[ctx.tick.id].status == Started)
  {
    var (ps, partResults) := DynamicPartitions.ApplyAll(partitions, data.partitionsRequests);
    if !(|data.runRequests| > 0 || data.hasAutomationEvaluations) then
      RunTriage.KeepsItself(runs);
      Evaluated(FinishUnrequested(ctx, partResults, data, clock), inst, ps, runs)
    else
      var (c, held, after) := ReserveAndSubmit(inst, ctx, partResults, data, reservedIds, stale, runs, launched, clock);
      Evaluated(c, held, ps, after)
  }

  /**
   Resumes an interrupted or failed tick: its outstanding (reserved id,
   request) pairs are submitted again and recorded, and the tick ends SUCCESS
   with its cursor unchanged.
   */
  function ResumeTick(ctx: Context, runs: RunTriage.RunStore, stale: RunRequest -> set<string>, launched: RunStatus,
                      clock: nat): (r: (Context, RunTriage.RunStore))
    ensures r.0.tick.id == ctx.tick.id && r.0.sensor == ctx.sensor
    ensures r.0.tick.data.status == Success
    ensures r.0.tick.data.cursor == ctx.tick.data.cursor
    ensures r.0.tick.data.partitionsResults == ctx.tick.data.partitionsResults
    ensures ctx.tick.data.runIds <= r.0.tick.data.runIds
    ensures RunTriage.Keeps(runs, r.1)
    ensures var (results, after) := SubmitRunRequests(Unsubmitted(ctx.tick.data), TickIdString(ctx.tick.id),
                                                      stale, runs, ctx.sensor, launched);
      && r.1 == after
      && RecordsExactly(ctx.tick.data, r.0.tick.data, results)
  {
    var (c, after) := SubmitAndRecord(ctx, Unsubmitted(ctx.tick.data), stale, runs, launched);
    SubmitRunRequestsKeeps(Unsubmitted(ctx.tick.data), TickIdString(ctx.tick.id), stale, runs, ctx.sensor, launched);
    (UpdateState(c, Success, WithCursor(c.tick.data.cursor), clock), after)
  }
}

=== FILE: launch_context.dfy ===
/**
 The launch context that holds a tick while it is evaluated: applying status
 updates to the tick, writing the tick and the sensor state back to storage,
 and deciding on exit how an exception marks the tick.
 */
module LaunchContext {
  import opened Records
  import TickSelection
  import SensorState

  /** The daemon's view of storage for one sensor: its ticks and its persisted state. */
  datatype Instance = Instance(ticks: TickSelection.TickStore, state: Option<InstigatorState>)

  datatype Context = Context(sensor: Sensor, tick: Tick, updateCursorOnFailure: bool)

  /**
   The optional arguments of a status update. `error` and `failureCount` are
   handed to the tick's `with_status`; the other three are applied only when set.
   */
  datatype StateUpdate = StateUpdate(
    skipReason: Option<string>,
    cursor: Option<string>,
    originRunId: Option<string>,
    error: Option<ErrorInfo>,
    failureCount: Option<nat>)

  const NoArgs := StateUpdate(None, None, None, None, None)

  function WithCursor(c: Option<string>): StateUpdate {
    NoArgs.(cursor := c)
  }

  /** Sets the tick's status and applies the set optional fields, keeping everything else. */
  function UpdateState(ctx: Context, status: TickStatus, u: StateUpdate, clock: nat): (c: Context)
    ensures c.sensor == ctx.sensor && c.updateCursorOnFailure == ctx.updateCursorOnFailure
    ensures c.tick.id == ctx.tick.id
    ensures c.tick.data.status == status && c.tick.data.error == u.error
    ensures c.tick.data.cursor == (if IsSetStr(u.cursor) then u.cursor else ctx.tick.data.cursor)
    ensures c.tick.data.skipReason == (if IsSetStr(u.skipReason) then u.skipReason else ctx.tick.data.skipReason)
    ensures c.tick.data.originRunIds
         == ctx.tick.data.originRunIds + (if IsSetStr(u.originRunId) then [u.originRunId.value] else [])
    ensures u.failureCount.Some? ==> c.tick.data.failureCount == u.failureCount.value
    ensures u.failureCount.None? ==> c.tick.data.failureCount == ctx.tick.data.failureCount
    ensures Unsubmitted(c.tick.data) == Unsubmitted(ctx.tick.data)
    ensures c.tick.data.runIds == ctx.tick.data.runIds && c.tick.data.runKeys == ctx.tick.data.runKeys
    ensures c.tick.data.partitionsResults == ctx.tick.data.partitionsResults
  {
    var t0 := WithStatus(ctx.tick.data, status, u.error, None, u.failureCount, clock);
    var t1 := if IsSetStr(u.skipReason) then t0.(skipReason := u.skipReason) else t0;
    var t2 := if IsSetStr(u.cursor) then t1.(cursor := u.cursor) else t1;
    var t3 := if IsSetStr(u.originRunId) then t2.(originRunIds := t2.originRunIds + [u.originRunId.value]) else t2;
    ctx.(tick := ctx.tick.(data := t3))
  }

  /** Applying the same update twice (at the same clock) is applying it once, unless it records an origin run. */
  lemma UpdateStateIsIdempotent(ctx: Context, status: TickStatus, u: StateUpdate, clock: nat)
    requires !IsSetStr(u.originRunId)
    ensures UpdateState(UpdateState(ctx, status, u, clock), status, u, clock) == UpdateState(ctx, status, u, clock)
  {
  }

  /** Records a run id and/or run key on the tick. */
  function AddRunInfo(ctx: Context, runId: Option<string>, runKey: Option<string>): (c: Context)
    ensures c.tick.id == ctx.tick.id && c.tick.data.status == ctx.tick.data.status
    ensures forall x :: x in c.tick.data.runIds <==> x in ctx.tick.data.runIds || (IsSetStr(runId) && x == runId.value)
    ensures forall x :: x in c.tick.data.runKeys <==> x in ctx.tick.data.runKeys || (IsSetStr(runKey) && x == runKey.value)
    ensures ctx.tick.data.runIds <= c.tick.data.runIds
    ensures c.tick.data.(runIds := ctx.tick.data.runIds, runKeys := ctx.tick.data.runKeys) == ctx.tick.data
    ensures c.sensor == ctx.sensor && c.updateCursorOnFailure == ctx.updateCursorOnFailure
  {
    ctx.(tick := ctx.tick.(data := WithRunInfo(ctx.tick.data, runId, runKey)))
  }

  /** Records what one dynamic-partitions request did. */
  function AddPartitionsResult(ctx: Context, res: PartitionsResult): (c: Context)
    ensures c.tick.data.partitionsResults == ctx.tick.data.partitionsResults + [res]
    ensures c.tick.data.(partitionsResults := ctx.tick.data.partitionsResults) == ctx.tick.data
  {
    ctx.(tick := ctx.tick.(data := ctx.tick.data.(partitionsResults := ctx.tick.data.partitionsResults + [res])))
  }

  /** The outcome of a write: the instance afterwards, and whether reading the stored state raised. */
  datatype Written = Written(inst: Instance, crashed: bool)

  /** The cursor and last run key follow the tick unless it failed and the context does not ask otherwise. */
  predicate AdvancesCursor(ctx: Context) {
    ctx.tick.data.status != Failure || ctx.updateCursorOnFailure
  }

  /**
   Writes the tick, and for a finished tick the sensor state derived from it.
   The stored state must have sensor data: without it the read of the stored
   tick start time raises after the tick has already been written.
   */
  function Write(inst: Instance, ctx: Context, clock: nat): (w: Written)
    ensures w.inst.ticks == TickSelection.UpdateTick(inst.ticks, ctx.tick)
    ensures !IsFinished(ctx.tick.data.status) ==> w == Written(inst.(ticks := w.inst.ticks), false)
    ensures w.crashed <==> IsFinished(ctx.tick.data.status) && (inst.state.None? || inst.state.value.data.None?)
    ensures w.crashed ==> w.inst.state == inst.state
    ensures IsFinished(ctx.tick.data.status) && !w.crashed ==>
      var t := ctx.tick.data;
      var prev := inst.state.value.data.value;
      && w.inst.state.Some? && w.inst.state.value.status == inst.state.value.status
      && w.inst.state.value.data.Some?
      && var d := w.inst.state.value.data.value;
      && d.lastTickTimestamp == Some(t.timestamp)
      && d.cursor == (if AdvancesCursor(ctx) then t.cursor else prev.cursor)
      && d.lastRunKey == (if AdvancesCursor(ctx) && |t.runKeys| > 0 then Some(t.runKeys[|t.runKeys| - 1]) else prev.lastRunKey)
      && d.lastTickStartTimestamp.Some?
      && d.lastTickStartTimestamp.value >= t.timestamp
      && d.lastTickStartTimestamp.value >= OrZero(prev.lastTickStartTimestamp)
      && (d.lastTickStartTimestamp.value == t.timestamp
          || d.lastTickStartTimestamp == prev.lastTickStartTimestamp)
      && d.lastSensorStartTimestamp == prev.lastSensorStartTimestamp
      && d.minInterval == ctx.sensor.minIntervalSeconds
      && d.sensorType == ctx.sensor.sensorType
      && d.lastTickSuccessTimestamp == (if t.status == Failure then None else Some(clock))
  {
    var ticks := TickSelection.UpdateTick(inst.ticks, ctx.tick);
    var t := ctx.tick.data;
    if !IsFinished(t.status) then Written(inst.(ticks := ticks), false)
    else if inst.state.None? || inst.state.value.data.None? then Written(inst.(ticks := ticks), true)
    else
      var state := inst.state.value;
      var prev := state.data.value;
      var advance := AdvancesCursor(ctx);
      var lastRunKey := if |t.runKeys| > 0 && advance then Some(t.runKeys[|t.runKeys| - 1]) else prev.lastRunKey;
      var cursor := if advance then t.cursor else prev.cursor;
      var marked := Max(t.timestamp, OrZero(prev.lastTickStartTimestamp));
      var data := SensorData(
        lastTickTimestamp := Some(t.timestamp),
        lastRunKey := lastRunKey,
        minInterval := ctx.sensor.minIntervalSeconds,
        cursor := cursor,
        lastTickStartTimestamp := Some(marked),
        lastSensorStartTimestamp := prev.lastSensorStartTimestamp,
        sensorType := ctx.sensor.sensorType,
        lastTickSuccessTimestamp := if t.status == Failure then None else Some(clock));
      Written(Instance(ticks, Some(state.(data := Some(data)))), false)
  }

  /** Writing the same context twice at the same clock leaves storage as the first write did. */
  lemma {:induction false} WriteIsIdempotent(inst: Instance, ctx: Context, clock: nat)
    ensures var w := Write(inst, ctx, clock);
      Write(w.inst, ctx, clock) == w
  {
    var w := Write(inst, ctx, clock);
    var w2 := Write(w.inst, ctx, clock);
    var ticks := TickSelection.UpdateTick(inst.ticks, ctx.tick);
    assert TickSelection.UpdateTick(ticks, ctx.tick) == ticks;
    if IsFinished(ctx.tick.data.status) && !w.crashed {
      assert w2.inst.state == w.inst.state;
    }
  }

  /**
   A tick written back after marking the state for it never crashes, and the
   sensor then stays gated for a full interval after the tick's timestamp.
   */
  lemma {:induction false} WrittenTickGatesSensor(inst: Instance, ctx: Context, clock: nat, later: nat)
    requires inst.state.Some? && inst.state.value.data.Some?
    requires IsFinished(ctx.tick.data.status)
    requires ctx.tick.data.timestamp != 0 && IsSetNum(ctx.sensor.minIntervalSeconds)
    requires later < ctx.tick.data.timestamp + ctx.sensor.minIntervalSeconds.value
    ensures !Write(inst, ctx, clock).crashed
    ensures SensorState.IsUnderMinInterval(Write(inst, ctx, clock).inst.state.value, ctx.sensor, later)
  {
    var d := Write(inst, ctx, clock).inst.state.value.data.value;
    assert ctx.tick.data.timestamp in SensorState.ActivityTimes(d);
  }

  /** A failure that does not ask for it leaves the stored cursor and last run key alone. */
  lemma FailureKeepsCursor(inst: Instance, ctx: Context, clock: nat)
    requires ctx.tick.data.status == Failure && !ctx.updateCursorOnFailure
    requires inst.state.Some? && inst.state.value.data.Some?
    ensures var d := Write(inst, ctx, clock).inst.state.value.data.value;
      && d.cursor == inst.state.value.data.value.cursor
      && d.lastRunKey == inst.state.value.data.value.lastRunKey
      && d.lastTickSuccessTimestamp == None
  {
  }

  /**
   Reserves the tick's run requests under run ids and stores the cursor, then
   writes the tick, so that the work survives a crash during submission.
   */
  function SetRunRequests(inst: Instance, ctx: Context, requests: seq<RunRequest>, reservedIds: seq<string>,
                          cursor: Option<string>, clock: nat): (r: (Context, Written))
    ensures r.0.tick.data == ctx.tick.data.(runRequests := requests, reservedRunIds := reservedIds, cursor := cursor)
    ensures r.0.tick.id == ctx.tick.id && r.0.sensor == ctx.sensor
    ensures r.1 == Write(inst, r.0, clock)
  {
    var c := ctx.(tick := ctx.tick.(data := ctx.tick.data.(runRequests := requests, reservedRunIds := reservedIds, cursor := cursor)));
    (c, Write(inst, c, clock))
  }

  /** The result of leaving the context: the final context, storage, and whether it was written. */
  datatype ExitResult = ExitResult(ctx: Context, inst: Instance, wrote: bool, crashed: bool)

  /** The failure update for an exception that escaped the tick's block. */
  function FailureUpdate(ctx: Context, e: ExceptionKind): StateUpdate {
    if e == UserCodeUnreachable || e == CodeLocationLoad then
      NoArgs.(error := Some(ErrorInfo(e, true)), failureCount := Some(ctx.tick.data.failureCount))
    else
      NoArgs.(error := Some(ErrorInfo(e, false)), failureCount := Some(ctx.tick.data.failureCount + 1))
  }

  /**
   Leaves the context. A keyboard interrupt writes nothing. Any other
   exception except a generator exit marks the tick FAILURE: an unreachable
   code server or a location that fails to load keeps the failure count (the
   tick is retried until the server is back), anything else increments it.
   Then the tick is written.
   */
  function Exit(inst: Instance, ctx: Context, exc: Option<ExceptionKind>, clock: nat): (r: ExitResult)
    ensures exc == Some(KeyboardInterrupt) ==> r == ExitResult(ctx, inst, false, false)
    ensures exc != Some(KeyboardInterrupt) ==>
      && r.wrote
      && Write(inst, r.ctx, clock) == Written(r.inst, r.crashed)
    ensures exc.None? || exc == Some(GeneratorExit) ==> r.ctx == ctx
    ensures exc.Some? && exc.value != KeyboardInterrupt && exc.value != GeneratorExit ==>
      && r.ctx.tick.id == ctx.tick.id
      && r.ctx.tick.data.status == Failure
      && r.ctx.tick.data.error.Some? && r.ctx.tick.data.error.value.cause == exc.value
      && r.ctx.tick.data.failureCount
         == ctx.tick.data.failureCount
            + (if exc.value == UserCodeUnreachable || exc.value == CodeLocationLoad then 0 else 1)
      && Unsubmitted(r.ctx.tick.data) == Unsubmitted(ctx.tick.data)
      && r.ctx.tick.data.cursor == ctx.tick.data.cursor
  {
    if exc == Some(KeyboardInterrupt) then ExitResult(ctx, inst, false, false)
    else
      var c := if exc.Some? && exc.value != GeneratorExit
               then UpdateState(ctx, Failure, FailureUpdate(ctx, exc.value), clock)
               else ctx;
      var w := Write(inst, c, clock);
      ExitResult(c, w.inst, true, w.crashed)
  }
}

=== FILE: lifecycle.dfy ===
/**
 One pass of the sensor daemon over one sensor: reload the sensor's state,
 stop when it is still under its minimum interval, otherwise mark the state,
 choose the tick, resume or evaluate it inside the launch context, and leave
 the context. Also what this means across ticks: no tick is left dangling, a
 sensor never ticks twice inside its interval, and interrupted or failed work
 is picked up again.
 */
module TickLifecycle {
  import opened Records
  import TickSelection
  import SensorState
  import opened LaunchContext
  import Evaluation
  import DynamicPartitions
  import RunTriage
  import Submission

  /**
   What the world contributes to one tick: the sensor's evaluation result, the
   fresh run ids reserved for its requests (one per request), the stale-asset
   resolution, the status a launch leaves a run in, and the exception, if any,
   raised as soon as the held block began (a code server that cannot be
   reached, a code location that fails to load, an interrupt).
   */
  datatype TickInputs = TickInputs(
    evaluation: Evaluation.RuntimeData,
    reservedIds: seq<string>,
    stale: RunRequest -> set<string>,
    launched: RunStatus,
    raised: Option<ExceptionKind>)

  /** One fresh run id is reserved per run request. */
  predicate OneIdPerRequest(inputs: TickInputs) {
    |inputs.reservedIds| == |inputs.evaluation.runRequests|
  }

  /**
   Storage after one pass, and the tick that was held (none when the pass
   stopped before choosing one). `crashed` is set when writing the tick raised.
   */
  datatype Processed = Processed(
    inst: Instance,
    partitions: DynamicPartitions.PartitionStore,
    runs: RunTriage.RunStore,
    tick: Option<Tick>,
    crashed: bool)

  /** The work done inside the held tick, before the context is left. */
  function HeldBlock(held: Instance, partitions: DynamicPartitions.PartitionStore, runs: RunTriage.RunStore,
                     ctx: Context, inputs: TickInputs, clock: nat): (r: Evaluation.Evaluated)
    requires ctx.tick.data.status == Started
    requires OneIdPerRequest(inputs)
    ensures r.ctx.tick.id == ctx.tick.id && r.ctx.sensor == ctx.sensor
    ensures r.inst.state == held.state && |r.inst.ticks| == |held.ticks|
    ensures forall i :: 0 <= i < |held.ticks| && i != ctx.tick.id ==> r.inst.ticks[i] == held.ticks[i]
    ensures RunTriage.Keeps(runs, r.runs)
    ensures inputs.raised.Some? ==> r == Evaluation.Evaluated(ctx, held, partitions, runs)
    ensures inputs.raised.None? ==> IsFinished(r.ctx.tick.data.status)
    ensures inputs.raised.None? && |Unsubmitted(ctx.tick.data)| > 0 ==>
      && r.ctx.tick.data.status == Success && r.inst == held && r.partitions == partitions
      && (r.ctx, r.runs) == Evaluation.ResumeTick(ctx, runs, inputs.stale, inputs.launched, clock)
    ensures inputs.raised.None? && |Unsubmitted(ctx.tick.data)| == 0 ==>
      r == Evaluation.EvaluateSensor(held, partitions, runs, ctx, inputs.evaluation, inputs.reservedIds, inputs.stale,
                                     inputs.launched, clock)
  {
    if inputs.raised.Some? then
      RunTriage.KeepsItself(runs);
      Evaluation.Evaluated(ctx, held, partitions, runs)
    else if |Unsubmitted(ctx.tick.data)| > 0 then
      var (c, after) := Evaluation.ResumeTick(ctx, runs, inputs.stale, inputs.launched, clock);
      Evaluation.Evaluated(c, held, partitions, after)
    else
      Evaluation.EvaluateSensor(held, partitions, runs, ctx, inputs.evaluation, inputs.reservedIds, inputs.stale,
                                inputs.launched, clock)
  }

  /**
   One pass over one sensor at time `now`. Without a stored state the reload
   fails and nothing happens; a sensor under its minimum interval is left
   alone. Otherwise the state is marked for the tick, the tick is chosen from
   the state as it was before marking, the held block runs, and the context
   is left, writing the tick and the state.
   */
  function ProcessTick(inst: Instance, partitions: DynamicPartitions.PartitionStore, runs: RunTriage.RunStore,
                       sensor: Sensor, now: nat, clock: nat, inputs: TickInputs): (r: Processed)
    requires OneIdPerRequest(inputs)
    ensures inst.state.None? || SensorState.IsUnderMinInterval(inst.state.value, sensor, now)
      ==> r == Processed(inst, partitions, runs, None, false)
    ensures inst.state.Some? && !SensorState.IsUnderMinInterval(inst.state.value, sensor, now) ==>
      && r.tick.Some? && !r.crashed
      && r.inst.state.Some? && r.inst.state.value.status == inst.state.value.status
      && r.inst.state.value.data.Some?
      && |r.inst.ticks| == |inst.ticks| + (if r.tick.value.id == |inst.ticks| then 1 else 0)
      && r.tick.value.id == |r.inst.ticks| - 1
      && (inputs.raised != Some(KeyboardInterrupt) ==> r.inst.ticks[r.tick.value.id] == r.tick.value.data)
      && (inputs.raised.None? ==> IsFinished(r.tick.value.data.status))
      && (inputs.raised.Some? && inputs.raised.value != KeyboardInterrupt && inputs.raised.value != GeneratorExit
          ==> r.tick.value.data.status == Failure)
      && (!IsFinished(r.tick.value.data.status)
          ==> r.inst.state == Some(SensorState.MarkSensorStateForTick(inst.state.value, sensor, now)))
      && (IsFinished(r.tick.value.data.status) ==>
            var d := r.inst.state.value.data.value;
            && d.lastTickTimestamp == Some(r.tick.value.data.timestamp)
            && d.lastTickSuccessTimestamp == (if r.tick.value.data.status == Failure then None else Some(clock))
            && (r.tick.value.data.status != Failure ==> d.cursor == r.tick.value.data.cursor))
    ensures inst.state.Some? && !SensorState.IsUnderMinInterval(inst.state.value, sensor, now) ==>
      var pre := inst.state.value;
      var (tick, ticks) := TickSelection.GetEvaluationTick(inst.ticks, sensor, pre.data, now, clock);
      var held := inst.(state := Some(SensorState.MarkSensorStateForTick(pre, sensor, now)), ticks := ticks);
      var e := HeldBlock(held, partitions, runs, Context(sensor, tick, false), inputs, clock);
      && r.tick.value.id == tick.id
      && r.runs == e.runs && r.partitions == e.partitions
      && (inputs.raised.None? ==> r.tick.value.data == e.ctx.tick.data)
  {
    if inst.state.None? || SensorState.IsUnderMinInterval(inst.state.value, sensor, now) then
      Processed(inst, partitions, runs, None, false)
    else
      var pre := inst.state.value;
      var marked := inst.(state := Some(SensorState.MarkSensorStateForTick(pre, sensor, now)));
      var (tick, ticks) := TickSelection.GetEvaluationTick(marked.ticks, sensor, pre.data, now, clock);
      var held := marked.(ticks := ticks);
      var e := HeldBlock(held, partitions, runs, Context(sensor, tick, false), inputs, clock);
      var x := Exit(e.inst, e.ctx, inputs.raised, clock);
      Processed(x.inst, e.partitions, e.runs, Some(x.ctx.tick), x.crashed)
  }

  /** The storage invariant a pass keeps: no dangling STARTED tick, and a recorded success means a finished tick. */
  predicate Consistent(inst: Instance) {
    && TickSelection.OnlyLatestMayBeStarted(inst.ticks)
    && (inst.state.Some? ==> TickSelection.SuccessMeansFinished(inst.ticks, inst.state.value.data))
  }

  /** Every pass keeps storage consistent, whatever the evaluation, the launcher and the exceptions did. */
  lemma {:induction false} ProcessTickKeepsConsistency(inst: Instance, partitions: DynamicPartitions.PartitionStore,
                                                       runs: RunTriage.RunStore,
                                                       sensor: Sensor, now: nat, clock: nat, inputs: TickInputs)
    requires Consistent(inst) && OneIdPerRequest(inputs)
    ensures Consistent(ProcessTick(inst, partitions, runs, sensor, now, clock, inputs).inst)
  {
    var r := ProcessTick(inst, partitions, runs, sensor, now, clock, inputs);
    if inst.state.Some? && !SensorState.IsUnderMinInterval(inst.state.value, sensor, now) {
      var pre := inst.state.value;
      var marked := inst.(state := Some(SensorState.MarkSensorStateForTick(pre, sensor, now)));
      var (tick, ticks) := TickSelection.GetEvaluationTick(marked.ticks, sensor, pre.data, now, clock);
      TickSelection.NoDanglingStartedTicks(inst.ticks, sensor, pre.data, now, clock);
      var held := marked.(ticks := ticks);
      var e := HeldBlock(held, partitions, runs, Context(sensor, tick, false), inputs, clock);
      var x := Exit(e.inst, e.ctx, inputs.raised, clock);
      assert r.inst == x.inst;
      forall i | 0 <= i < |r.inst.ticks| - 1
        ensures IsFinished(r.inst.ticks[i].status)
      {
        assert r.inst.ticks[i] == ticks[i];
      }
      if r.inst.state.value.data.value.lastTickSuccessTimestamp.Some? {
        assert x.wrote && IsFinished(x.ctx.tick.data.status);
      }
    }
  }

  /**
   After a pass that held a tick at a non-zero time, the sensor is gated for a
   full interval from that time: the next pass inside the interval does nothing.
   */
  lemma {:induction false} SensorNeverTicksTwiceWithinInterval(inst: Instance, partitions: DynamicPartitions.PartitionStore,
                                                              runs: RunTriage.RunStore,
                                                              sensor: Sensor, now: nat, clock: nat, inputs: TickInputs,
                                                              later: nat, partitions2: DynamicPartitions.PartitionStore,
                                                              clock2: nat, inputs2: TickInputs)
    requires OneIdPerRequest(inputs) && OneIdPerRequest(inputs2)
    requires now != 0 && IsSetNum(sensor.minIntervalSeconds)
    requires later < now + sensor.minIntervalSeconds.value
    ensures var r := ProcessTick(inst, partitions, runs, sensor, now, clock, inputs);
      && (r.tick.Some? ==> SensorState.IsUnderMinInterval(r.inst.state.value, sensor, later))
      && (r.tick.Some? ==> ProcessTick(r.inst, partitions2, r.runs, sensor, later, clock2, inputs2)
                           == Processed(r.inst, partitions2, r.runs, None, false))
  {
    var r := ProcessTick(inst, partitions, runs, sensor, now, clock, inputs);
    if r.tick.Some? {
      var pre := inst.state.value;
      var markedState := SensorState.MarkSensorStateForTick(pre, sensor, now);
      var marked := inst.(state := Some(markedState));
      var (tick, ticks) := TickSelection.GetEvaluationTick(marked.ticks, sensor, pre.data, now, clock);
      var held := marked.(ticks := ticks);
      var e := HeldBlock(held, partitions, runs, Context(sensor, tick, false), inputs, clock);
      var x := Exit(e.inst, e.ctx, inputs.raised, clock);
      var d := r.inst.state.value.data.value;
      assert e.inst.state == Some(markedState);
      assert OrZero(d.lastTickStartTimestamp) >= now;
      assert OrZero(d.lastTickStartTimestamp) in SensorState.ActivityTimes(d);
    }
  }

  /**
   A tick whose run requests were written before submission, and which then
   stopped without being left (the process died), is resumed by the next
   choice of tick made within a day: the same tick, with the same work.
   */
  lemma InterruptedSubmissionIsResumed(inst: Instance, ctx: Context, requests: seq<RunRequest>,
                                       reservedIds: seq<string>, cursor: Option<string>, clock: nat,
                                       later: nat, clock2: nat)
    requires inst.state.Some?
    requires inst.state.value.data.Some? ==> !IsSetNum(inst.state.value.data.value.lastTickSuccessTimestamp)
    requires ctx.tick.data.status == Started && ctx.tick.id + 1 == |inst.ticks|
    requires |NotRecorded(ReservedWithRequests(reservedIds, requests), ctx.tick.data.runIds)| > 0
    requires later - ctx.tick.data.timestamp <= MaxTimeToResumeTickSeconds
    ensures var (c, w) := SetRunRequests(inst, ctx, requests, reservedIds, cursor, clock);
      && !w.crashed
      && TickSelection.GetEvaluationTick(w.inst.ticks, ctx.sensor, w.inst.state.value.data, later, clock2)
         == (c.tick, w.inst.ticks)
  {
    var (c, w) := SetRunRequests(inst, ctx, requests, reservedIds, cursor, clock);
    assert Unsubmitted(c.tick.data) == NotRecorded(ReservedWithRequests(reservedIds, requests), ctx.tick.data.runIds);
    assert w.inst.ticks[ctx.tick.id] == c.tick.data;
  }

  /**
   A tick with outstanding work that fails with an exception is retried by the
   next choice of tick exactly while its failure count is at most the retry
   limit, and the retry carries the same outstanding work. An unreachable code
   server or a failed location load does not count as a failure, so such a
   tick keeps being retried.
   */
  lemma FailedTickIsRetried(inst: Instance, ctx: Context, e: ExceptionKind, clock: nat, later: nat, clock2: nat)
    requires inst.state.Some? && inst.state.value.data.Some?
    requires ctx.tick.id + 1 == |inst.ticks|
    requires |Unsubmitted(ctx.tick.data)| > 0
    requires e != KeyboardInterrupt && e != GeneratorExit
    ensures var x := Exit(inst, ctx, Some(e), clock);
      var next := TickSelection.GetEvaluationTick(x.inst.ticks, ctx.sensor, x.inst.state.value.data, later, clock2);
      && !x.crashed
      && (|Unsubmitted(next.0.data)| > 0 <==> x.ctx.tick.data.failureCount <= MaxFailureResubmissionRetries)
      && (x.ctx.tick.data.failureCount <= MaxFailureResubmissionRetries
          ==> Unsubmitted(next.0.data) == Unsubmitted(ctx.tick.data))
      && ((e == UserCodeUnreachable || e == CodeLocationLoad) && ctx.tick.data.failureCount <= MaxFailureResubmissionRetries
          ==> |Unsubmitted(next.0.data)| > 0)
  {
    var x := Exit(inst, ctx, Some(e), clock);
    var data := x.inst.state.value.data;
    TickSelection.EvaluationTickWork(x.inst.ticks, ctx.sensor, data, later, clock2);
    assert x.inst.ticks[ctx.tick.id] == x.ctx.tick.data;
    assert TickSelection.PreviousTick(x.inst.ticks, data) == Some(x.ctx.tick);
  }

  /**
   The point of reserving run ids before submission: if a tick wrote its
   reserved requests, submitted them all, and the process died before the
   tick recorded the outcome, the tick chosen next (within a day) is that same
   tick, and resuming it creates no duplicate run. Staleness is resolved again
   on the resume (`stale2`, where the first pass used `stale1`), so the only
   runs the resume adds carry the reserved id of a stale-only request the
   first pass dropped and the resume keeps; when both resolutions drop the
   same requests, it adds none.
   */
  lemma {:induction false} ResumedTickCreatesNoDuplicateRuns(inst: Instance, ctx: Context, requests: seq<RunRequest>,
                                                             reservedIds: seq<string>, cursor: Option<string>, clock: nat,
                                                             runs: RunTriage.RunStore,
                                                             stale1: RunRequest -> set<string>,
                                                             stale2: RunRequest -> set<string>, launched: RunStatus,
                                                             later: nat, clock2: nat, clock3: nat)
    requires inst.state.Some?
    requires inst.state.value.data.Some? ==> !IsSetNum(inst.state.value.data.value.lastTickSuccessTimestamp)
    requires ctx.tick.data.status == Started && ctx.tick.id + 1 == |inst.ticks|
    requires |NotRecorded(ReservedWithRequests(reservedIds, requests), ctx.tick.data.runIds)| > 0
    requires later - ctx.tick.data.timestamp <= MaxTimeToResumeTickSeconds
    ensures var (c, w) := SetRunRequests(inst, ctx, requests, reservedIds, cursor, clock);
      var tickId := Submission.TickIdString(c.tick.id);
      var submitted := Submission.SubmitRunRequests(ReservedWithRequests(reservedIds, requests),
                                                    tickId, stale1, runs, ctx.sensor, launched).1;
      var next := TickSelection.GetEvaluationTick(w.inst.ticks, ctx.sensor, w.inst.state.value.data, later, clock2).0;
      var resumed := Evaluation.ResumeTick(Context(ctx.sensor, next, false), submitted, stale2, launched, clock3).1;
      var ids := Submission.NewlyKeptIds(Unsubmitted(c.tick.data), tickId, stale1, stale2);
      && next == c.tick
      && RunTriage.Keeps(submitted, resumed)
      && (forall i :: 0 <= i < |resumed| - |submitted| ==> resumed[i].runId in ids)
      && (ids == {} ==> |resumed| == |submitted|)
  {
    var (c, w) := SetRunRequests(inst, ctx, requests, reservedIds, cursor, clock);
    InterruptedSubmissionIsResumed(inst, ctx, requests, reservedIds, cursor, clock, later, clock2);
    var pairs := ReservedWithRequests(reservedIds, requests);
    assert Unsubmitted(c.tick.data) == NotRecorded(pairs, ctx.tick.data.runIds);
    Submission.ResubmissionCreatesNoRun(pairs, Unsubmitted(c.tick.data), Submission.TickIdString(c.tick.id),
                                        stale1, stale2, runs, ctx.sensor, launched);
  }
}

=== FILE: partitions.dfy ===
/**
 Dynamic-partitions requests returned by a sensor: each request's keys are
 split into those that already exist and those that do not; an add request
 adds the missing ones, a delete request deletes the existing ones, and the
 other group is reported as skipped.
 */
module DynamicPartitions {
  import opened Records

  /** The stored dynamic partitions, as (partitions definition name, partition key) pairs. */
  type PartitionStore = set<(string, string)>

  datatype PartitionsRequest =
    | AddPartitions(defName: string, keys: seq<string>)
    | DeletePartitions(defName: string, keys: seq<string>)

  /** The keys already stored under the definition, in request order. */
  function Existing(keys: seq<string>, defName: string, store: PartitionStore): (r: seq<string>)
    ensures forall k :: k in r <==> k in keys && (defName, k) in store
    ensures |r| <= |keys|
  {
    if |keys| == 0 then []
    else (if (defName, keys[0]) in store then [keys[0]] else []) + Existing(keys[1..], defName, store)
  }

  /** The keys not yet stored under the definition, in request order. */
  function Missing(keys: seq<string>, defName: string, store: PartitionStore): (r: seq<string>)
    ensures forall k :: k in r <==> k in keys && (defName, k) !in store
    ensures |r| <= |keys|
  {
    if |keys| == 0 then []
    else (if (defName, keys[0]) in store then [] else [keys[0]]) + Missing(keys[1..], defName, store)
  }

  /** `keys` is an order-preserving merge of `a` and `b`. */
  predicate Interleaves(keys: seq<string>, a: seq<string>, b: seq<string>)
    decreases |keys|
  {
    if |keys| == 0 then a == [] && b == []
    else
      || (|a| > 0 && a[0] == keys[0] && Interleaves(keys[1..], a[1..], b))
      || (|b| > 0 && b[0] == keys[0] && Interleaves(keys[1..], a, b[1..]))
  }

  /**
   The existing and the missing keys split the request's keys: every key lands
   in exactly one group, as often as it occurs, and each group keeps the
   request's order.
   */
  lemma {:induction false} ExistingAndMissingSplitKeys(keys: seq<string>, defName: string, store: PartitionStore)
    ensures Interleaves(keys, Existing(keys, defName, store), Missing(keys, defName, store))
    ensures multiset(Existing(keys, defName, store)) + multiset(Missing(keys, defName, store)) == multiset(keys)
  {
    SplitKeepsOrder(keys, defName, store);
    SplitKeepsCount(keys, defName, store);
  }

  lemma {:induction false} SplitKeepsOrder(keys: seq<string>, defName: string, store: PartitionStore)
    ensures Interleaves(keys, Existing(keys, defName, store), Missing(keys, defName, store))
    decreases |keys|
  {
    if |keys| > 0 {
      var e, m := Existing(keys, defName, store), Missing(keys, defName, store);
      var e', m' := Existing(keys[1..], defName, store), Missing(keys[1..], defName, store);
      SplitKeepsOrder(keys[1..], defName, store);
      if (defName, keys[0]) in store {
        assert e == [keys[0]] + e' && m == m';
        assert e[0] == keys[0] && e[1..] == e';
      } else {
        assert m == [keys[0]] + m' && e == e';
        assert m[0] == keys[0] && m[1..] == m';
      }
    }
  }

  lemma {:induction false} SplitKeepsCount(keys: seq<string>, defName: string, store: PartitionStore)
    ensures multiset(Existing(keys, defName, store)) + multiset(Missing(keys, defName, store)) == multiset(keys)
    decreases |keys|
  {
    if |keys| > 0 {
      var k, rest := keys[0], keys[1..];
      var e', m' := Existing(rest, defName, store), Missing(rest, defName, store);
      SplitKeepsCount(rest, defName, store);
      assert keys == [k] + rest;
      assert multiset(keys) == multiset{k} + multiset(rest);
      if (defName, k) in store {
        assert Existing(keys, defName, store) == [k] + e';
        assert Missing(keys, defName, store) == m';
        assert multiset([k] + e') == multiset{k} + multiset(e');
      } else {
        assert Existing(keys, defName, store) == e';
        assert Missing(keys, defName, store) == [k] + m';
        assert multiset([k] + m') == multiset{k} + multiset(m');
      }
    }
  }

  /** The set of (definition, key) pairs for the given keys. */
  function Pairs(defName: string, keys: seq<string>): (r: set<(string, string)>)
    ensures forall d, k :: (d, k) in r <==> d == defName && k in keys
  {
    set k | k in keys :: (defName, k)
  }

  /** Applies one request: the new store and the result recorded on the tick. */
  function ApplyRequest(store: PartitionStore, req: PartitionsRequest): (r: (PartitionStore, PartitionsResult))
    ensures r.1.partitionsDefName == req.defName
    ensures req.AddPartitions? ==>
      && r.1 == PartitionsResult(req.defName, Some(Missing(req.keys, req.defName, store)), None,
                                 Existing(req.keys, req.defName, store))
      && r.0 == store + Pairs(req.defName, Missing(req.keys, req.defName, store))
    ensures req.DeletePartitions? ==>
      && r.1 == PartitionsResult(req.defName, None, Some(Existing(req.keys, req.defName, store)),
                                 Missing(req.keys, req.defName, store))
      && r.0 == store - Pairs(req.defName, Existing(req.keys, req.defName, store))
  {
    var existing := Existing(req.keys, req.defName, store);
    var missing := Missing(req.keys, req.defName, store);
    match req
    case AddPartitions(name, _) =>
      (if |missing| > 0 then store + Pairs(name, missing) else store,
       PartitionsResult(name, Some(missing), None, existing))
    case DeletePartitions(name, _) =>
      (if |existing| > 0 then store - Pairs(name, existing) else store,
       PartitionsResult(name, None, Some(existing), missing))
  }

  /**
   What an applied request does to storage: after an add every requested key
   exists, after a delete none does, and no other partition changes.
   */
  lemma RequestEffect(store: PartitionStore, req: PartitionsRequest)
    ensures var s := ApplyRequest(store, req).0;
      && (forall k :: k in req.keys ==> ((req.defName, k) in s <==> req.AddPartitions?))
      && (forall d, k :: d != req.defName || k !in req.keys ==> ((d, k) in s <==> (d, k) in store))
  {
  }

  /** Repeating a request changes nothing more and reports every key as skipped. */
  lemma {:induction false} RepeatedRequestIsSkipped(store: PartitionStore, req: PartitionsRequest)
    ensures var (s1, _) := ApplyRequest(store, req);
      var (s2, res2) := ApplyRequest(s1, req);
      && s2 == s1
      && res2.skipped == req.keys
      && (req.AddPartitions? ==> res2.added == Some([]))
      && (req.DeletePartitions? ==> res2.deleted == Some([]))
  {
    var s1 := ApplyRequest(store, req).0;
    RequestEffect(store, req);
    if req.AddPartitions? {
      AllStoredMeansNoneMissing(req.keys, req.defName, s1);
    } else {
      NoneStoredMeansAllMissing(req.keys, req.defName, s1);
    }
  }

  lemma {:induction false} AllStoredMeansNoneMissing(keys: seq<string>, defName: string, store: PartitionStore)
    requires forall k :: k in keys ==> (defName, k) in store
    ensures Missing(keys, defName, store) == [] && Existing(keys, defName, store) == keys
    decreases |keys|
  {
    if |keys| > 0 {
      AllStoredMeansNoneMissing(keys[1..], defName, store);
      assert keys == [keys[0]] + keys[1..];
    }
  }

  lemma {:induction false} NoneStoredMeansAllMissing(keys: seq<string>, defName: string, store: PartitionStore)
    requires forall k :: k in keys ==> (defName, k) !in store
    ensures Existing(keys, defName, store) == [] && Missing(keys, defName, store) == keys
    decreases |keys|
  {
    if |keys| > 0 {
      NoneStoredMeansAllMissing(keys[1..], defName, store);
      assert keys == [keys[0]] + keys[1..];
    }
  }

  /**
   Handles the requests in order, each seeing the effect of the ones before it,
   and returns the final store and one result per request: the loop as the
   daemon runs it. The evaluation uses its functional counterpart `ApplyAll`,
   which the postcondition shows it computes.
   */
  method HandleRequests(store: PartitionStore, requests: seq<PartitionsRequest>)
    returns (s: PartitionStore, results: seq<PartitionsResult>)
    ensures |results| == |requests|
    ensures forall i :: 0 <= i < |requests| ==> results[i].partitionsDefName == requests[i].defName
    ensures s == ApplyAll(store, requests).0 && results == ApplyAll(store, requests).1
  {
    s := store;
    results := [];
    var i := 0;
    while i < |requests|
      invariant 0 <= i <= |requests|
      invariant (s, results) == ApplyAll(store, requests[..i])
      invariant |results| == i
      invariant forall j :: 0 <= j < i ==> results[j].partitionsDefName == requests[j].defName
    {
      assert requests[..i + 1] == requests[..i] + [requests[i]];
      ApplyAllSnoc(store, requests[..i], requests[i]);
      var (s', res) := ApplyRequest(s, requests[i]);
      s := s';
      results := results + [res];
      i := i + 1;
    }
    assert requests[..i] == requests;
  }

  /** The requests applied one after another, as a reference for the loop above. */
  function ApplyAll(store: PartitionStore, requests: seq<PartitionsRequest>): (PartitionStore, seq<PartitionsResult>)
    decreases |requests|
  {
    if |requests| == 0 then (store, [])
    else
      var (s, res) := ApplyRequest(store, requests[0]);
      var (s', rest) := ApplyAll(s, requests[1..]);
      (s', [res] + rest)
  }

  lemma {:induction false} ApplyAllSnoc(store: PartitionStore, requests: seq<PartitionsRequest>, last: PartitionsRequest)
    ensures var (s, res) := ApplyAll(store, requests);
      ApplyAll(store, requests + [last]) == (ApplyRequest(s, last).0, res + [ApplyRequest(s, last).1])
    decreases |requests|
  {
    if |requests| == 0 {
      assert requests + [last] == [last];
      assert [last][1..] == [];
      var (s, r) := ApplyRequest(store, last);
      assert ApplyAll(s, []) == (s, []);
      assert ApplyAll(store, [last]) == (s, [r] + []);
      assert ApplyAll(store, requests) == (store, []);
      assert [] + [r] == [r] + [];
    } else {
      var (s0, r0) := ApplyRequest(store, requests[0]);
      assert (requests + [last])[0] == requests[0];
      assert (requests + [last])[1..] == requests[1..] + [last];
      ApplyAllSnoc(s0, requests[1..], last);
      var (s1, rest) := ApplyAll(s0, requests[1..]);
      assert ApplyAll(store, requests) == (s1, [r0] + rest);
      assert ApplyAll(store, requests + [last])
          == (ApplyRequest(s1, last).0, [r0] + (rest + [ApplyRequest(s1, last).1]));
      assert [r0] + (rest + [ApplyRequest(s1, last).1]) == ([r0] + rest) + [ApplyRequest(s1, last).1];
    }
  }
}

=== FILE: records.dfy ===
/**
 The immutable records the sensor daemon passes around: a tick, the persisted
 per-sensor state, the sensor definition, run requests and stored runs.

 Timestamps are whole seconds since the epoch (`nat`); the wall clock is always
 a parameter. Python truthiness is written out: an optional timestamp or
 interval that is unset or zero is "not set", and so is an optional string that
 is unset or empty.
 */
module Records {

  datatype Option<+T> = None | Some(value: T)

  /** `bool(x)` for an optional number: unset and zero are both false. */
  predicate IsSetNum(o: Option<int>) {
    o.Some? && o.value != 0
  }

  /** `bool(s)` for an optional string: unset and "" are both false. */
  predicate IsSetStr(o: Option<string>) {
    o.Some? && o.value != ""
  }

  /** `x or 0` for an optional timestamp. */
  function OrZero(o: Option<nat>): nat {
    if o.Some? then o.value else 0
  }

  function Max(a: int, b: int): int {
    if a >= b then a else b
  }

  /** How long a dangling STARTED tick may still be resumed: one day. */
  const MaxTimeToResumeTickSeconds: nat := 60 * 60 * 24

  /** How many times a FAILURE tick with unsubmitted runs is retried. */
  const MaxFailureResubmissionRetries: nat := 1

  /** Run tags the daemon reads and writes (values from the run-storage tag module). */
  const RunKeyTag: string := "dagster/run_key"
  const SensorNameTag: string := "dagster/sensor_name"
  const TickIdTag: string := "dagster/tick"

  datatype TickStatus = Started | Skipped | Success | Failure

  /** SKIPPED, SUCCESS and FAILURE are the finished tick states. */
  predicate IsFinished(s: TickStatus) {
    s != Started
  }

  /** The exceptions the launch context tells apart when a tick's block exits. */
  datatype ExceptionKind =
    | KeyboardInterrupt
    | GeneratorExit
    | UserCodeUnreachable
    | CodeLocationLoad
    | OtherError(message: string)

  /** Captured error info; `wrapped` when the cause was re-raised as a sensor daemon error. */
  datatype ErrorInfo = ErrorInfo(cause: ExceptionKind, wrapped: bool)

  datatype RunRequest = RunRequest(
    runKey: Option<string>,
    jobName: string,
    tags: map<string, string>,
    assetSelection: Option<set<string>>,
    staleAssetsOnly: bool,
    requiresBackfill: bool)

  /** What one dynamic-partitions request did, as recorded on the tick. */
  datatype PartitionsResult = PartitionsResult(
    partitionsDefName: string,
    added: Option<seq<string>>,
    deleted: Option<seq<string>>,
    skipped: seq<string>)

  datatype TickData = TickData(
    sensorName: string,
    status: TickStatus,
    timestamp: nat,
    endTimestamp: Option<nat>,
    runIds: seq<string>,
    runKeys: seq<string>,
    error: Option<ErrorInfo>,
    skipReason: Option<string>,
    cursor: Option<string>,
    originRunIds: seq<string>,
    failureCount: nat,
    partitionsResults: seq<PartitionsResult>,
    runRequests: seq<RunRequest>,
    reservedRunIds: seq<string>)

  /** A stored tick: its storage id and its data. */
  datatype Tick = Tick(id: nat, data: TickData)

  /** The sensor-specific part of the persisted instigator state. */
  datatype SensorData = SensorData(
    lastTickTimestamp: Option<nat>,
    lastRunKey: Option<string>,
    minInterval: Option<int>,
    cursor: Option<string>,
    lastTickStartTimestamp: Option<nat>,
    lastSensorStartTimestamp: Option<nat>,
    sensorType: string,
    lastTickSuccessTimestamp: Option<nat>)

  datatype InstigatorStatus = Running | Stopped | DeclaredInCode

  datatype InstigatorState = InstigatorState(status: InstigatorStatus, data: Option<SensorData>)

  /** The parts of the external sensor definition the daemon consults. */
  datatype Sensor = Sensor(
    name: string,
    minIntervalSeconds: Option<int>,
    sensorType: string,
    repositorySelectorId: string)

  datatype RunStatus =
    | RunNotStarted | RunQueued | RunStarting | RunStarted | RunSuccess
    | RunFailure | RunCanceling | RunCanceled | RunManaged

  /** A stored run; `originRepository` is the selector id of the job origin's repository, if any. */
  datatype Run = Run(
    runId: string,
    status: RunStatus,
    tags: map<string, string>,
    originRepository: Option<string>,
    assetSelection: Option<set<string>>)

  /** The reserved run ids paired with their requests, in reservation order. */
  function ReservedWithRequests(ids: seq<string>, reqs: seq<RunRequest>): (r: seq<(string, RunRequest)>)
    ensures |r| == if |ids| <= |reqs| then |ids| else |reqs|
    ensures forall i :: 0 <= i < |r| ==> r[i] == (ids[i], reqs[i])
  {
    if |ids| == 0 || |reqs| == 0 then []
    else [(ids[0], reqs[0])] + ReservedWithRequests(ids[1..], reqs[1..])
  }

  /** The pairs whose run id is not yet recorded on the tick, order kept. */
  function NotRecorded(pairs: seq<(string, RunRequest)>, runIds: seq<string>): (r: seq<(string, RunRequest)>)
    ensures forall p :: p in r <==> p in pairs && p.0 !in runIds
    ensures |r| <= |pairs|
  {
    if |pairs| == 0 then []
    else if pairs[0].0 in runIds then NotRecorded(pairs[1..], runIds)
    else [pairs[0]] + NotRecorded(pairs[1..], runIds)
  }

  /** The reserved run requests whose run id the tick has not recorded yet. */
  function Unsubmitted(t: TickData): seq<(string, RunRequest)> {
    NotRecorded(ReservedWithRequests(t.reservedRunIds, t.runRequests), t.runIds)
  }

  /**
   The tick's `with_status`: the status is set, the error replaced (cleared
   when none is given), the timestamp and failure count replaced only when
   given; a finished status stamps the end time with the clock, STARTED clears it.
   */
  function WithStatus(t: TickData, status: TickStatus, error: Option<ErrorInfo>,
                      timestamp: Option<nat>, failureCount: Option<nat>, clock: nat): (r: TickData)
    ensures r.status == status && r.error == error
    ensures r.timestamp == (if timestamp.Some? then timestamp.value else t.timestamp)
    ensures r.failureCount == (if failureCount.Some? then failureCount.value else t.failureCount)
    ensures r.endTimestamp == (if IsFinished(status) then Some(clock) else None)
    ensures r.(status := t.status, error := t.error, timestamp := t.timestamp,
               failureCount := t.failureCount, endTimestamp := t.endTimestamp) == t
  {
    t.(status := status, error := error,
       timestamp := if timestamp.Some? then timestamp.value else t.timestamp,
       failureCount := if failureCount.Some? then failureCount.value else t.failureCount,
       endTimestamp := if IsFinished(status) then Some(clock) else None)
  }

  /** The tick's `with_run_info`: a set run id or run key is appended unless already recorded. */
  function WithRunInfo(t: TickData, runId: Option<string>, runKey: Option<string>): (r: TickData)
    ensures IsSetStr(runId) ==> runId.value in r.runIds
    ensures IsSetStr(runKey) ==> runKey.value in r.runKeys
    ensures forall x :: x in r.runIds <==> x in t.runIds || (IsSetStr(runId) && x == runId.value)
    ensures forall x :: x in r.runKeys <==> x in t.runKeys || (IsSetStr(runKey) && x == runKey.value)
    ensures t.runIds <= r.runIds && t.runKeys <= r.runKeys
    ensures r.(runIds := t.runIds, runKeys := t.runKeys) == t
  {
    t.(runIds := if IsSetStr(runId) && runId.value !in t.runIds then t.runIds + [runId.value] else t.runIds,
       runKeys := if IsSetStr(runKey) && runKey.value !in t.runKeys then t.runKeys + [runKey.value] else t.runKeys)
  }
}

=== FILE: run_triage.dfy ===
/**
 Run-request triage: which stored runs already answer a sensor's run keys,
 whether a request reuses, skips or creates a run, and which requests survive
 stale-asset resolution.

 Stored runs are a sequence in the order the run storage returns them; the run
 with a given id is the first one carrying it.
 */
module RunTriage {
  import opened Records

  type RunStore = seq<Run>

  /** The run's run-key tag, if it has one. */
  function RunKeyOf(run: Run): Option<string> {
    if RunKeyTag in run.tags then Some(run.tags[RunKeyTag]) else None
  }

  /** The truthy run keys of the requests, in request order. */
  function RequestedRunKeys(requests: seq<RunRequest>): (r: seq<string>)
    ensures forall k :: k in r <==> exists i :: 0 <= i < |requests| && requests[i].runKey == Some(k) && k != ""
  {
    if |requests| == 0 then []
    else
      var rest := RequestedRunKeys(requests[1..]);
      assert forall i :: 1 <= i < |requests| ==> requests[i] == requests[1..][i - 1];
      if IsSetStr(requests[0].runKey) then [requests[0].runKey.value] + rest else rest
  }

  /** The storage query for runs tagged with the run key, in storage order. */
  function RunsTaggedWith(stored: RunStore, key: string): (r: seq<Run>)
    ensures forall run :: run in r ==> run in stored && RunKeyOf(run) == Some(key)
    decreases |stored|
  {
    if |stored| == 0 then []
    else
      var last := stored[|stored| - 1];
      RunsTaggedWith(stored[..|stored| - 1], key) + (if RunKeyOf(last) == Some(key) then [last] else [])
  }

  /** The runs of every queried key, one query after another. */
  function RunsForKeys(stored: RunStore, keys: seq<string>): seq<Run>
    decreases |keys|
  {
    if |keys| == 0 then []
    else RunsForKeys(stored, keys[..|keys| - 1]) + RunsTaggedWith(stored, keys[|keys| - 1])
  }

  /**
   A run belongs to the sensor when its sensor-name tag is the sensor's name
   and, if it has an origin, the origin's repository is the sensor's.
   */
  predicate IsSensorRun(run: Run, sensor: Sensor) {
    if run.originRepository.None? then
      SensorNameTag in run.tags && run.tags[SensorNameTag] == sensor.name
    else
      && run.originRepository.value == sensor.repositorySelectorId
      && SensorNameTag in run.tags && run.tags[SensorNameTag] == sensor.name
  }

  function SensorRuns(runs: seq<Run>, sensor: Sensor): seq<Run>
    decreases |runs|
  {
    if |runs| == 0 then []
    else
      var last := runs[|runs| - 1];
      SensorRuns(runs[..|runs| - 1], sensor) + (if IsSensorRun(last, sensor) then [last] else [])
  }

  /** Keys runs by their run-key tag; a later run replaces an earlier one with the same key. */
  function IndexByRunKey(runs: seq<Run>): map<Option<string>, Run>
    decreases |runs|
  {
    if |runs| == 0 then map[]
    else
      var last := runs[|runs| - 1];
      IndexByRunKey(runs[..|runs| - 1])[RunKeyOf(last) := last]
  }

  /**
   The existing runs of this sensor for the requests' run keys: fetch the runs
   of each truthy run key, keep the sensor's own, and index them by run key.
   */
  function FetchExistingRuns(stored: RunStore, sensor: Sensor, requests: seq<RunRequest>): map<Option<string>, Run>
  {
    var keys := RequestedRunKeys(requests);
    if |keys| == 0 then map[]
    else IndexByRunKey(SensorRuns(RunsForKeys(stored, keys), sensor))
  }

  /** The last stored run of the sensor tagged with the key, as an independent reference. */
  function LastSensorRun(stored: RunStore, key: string, sensor: Sensor): (r: Option<Run>)
    ensures r.Some? ==> r.value in stored && RunKeyOf(r.value) == Some(key) && IsSensorRun(r.value, sensor)
    ensures r.None? ==> forall run :: run in stored ==> !(RunKeyOf(run) == Some(key) && IsSensorRun(run, sensor))
    decreases |stored|
  {
    if |stored| == 0 then None
    else
      var last := stored[|stored| - 1];
      if RunKeyOf(last) == Some(key) && IsSensorRun(last, sensor) then Some(last)
      else
        assert forall run :: run in stored ==> run == last || run in stored[..|stored| - 1];
        LastSensorRun(stored[..|stored| - 1], key, sensor)
  }

  lemma {:induction false} SensorRunsAppend(a: seq<Run>, b: seq<Run>, sensor: Sensor)
    ensures SensorRuns(a + b, sensor) == SensorRuns(a, sensor) + SensorRuns(b, sensor)
    decreases |b|
  {
    if |b| > 0 {
      var ab := a + b;
      assert ab[..|ab| - 1] == a + b[..|b| - 1];
      assert ab[|ab| - 1] == b[|b| - 1];
      SensorRunsAppend(a, b[..|b| - 1], sensor);
    } else {
      assert a + b == a;
    }
  }

  lemma {:induction false} IndexAppend(a: seq<Run>, b: seq<Run>)
    ensures IndexByRunKey(a + b) == IndexByRunKey(a) + IndexByRunKey(b)
    decreases |b|
  {
    if |b| > 0 {
      var ab := a + b;
      assert ab[..|ab| - 1] == a + b[..|b| - 1];
      assert ab[|ab| - 1] == b[|b| - 1];
      IndexAppend(a, b[..|b| - 1]);
    } else {
      assert a + b == a;
    }
  }

  lemma IndexOfSingleRun(run: Run)
    ensures IndexByRunKey([run]) == map[RunKeyOf(run) := run]
  {
    assert [run][..0] == [];
  }

  lemma SensorRunsOfSingleRun(run: Run, sensor: Sensor)
    ensures SensorRuns([run], sensor) == if IsSensorRun(run, sensor) then [run] else []
  {
    assert [run][..0] == [];
  }

  /** The query for a key grows by the newest stored run when that run carries the key. */
  lemma RunsTaggedWithSnoc(stored: RunStore, key: string)
    requires |stored| > 0
    ensures var last := stored[|stored| - 1];
      RunsTaggedWith(stored, key)
      == RunsTaggedWith(stored[..|stored| - 1], key) + (if RunKeyOf(last) == Some(key) then [last] else [])
  {
  }

  /** The newest stored run's contribution to one key's filtered, indexed query. */
  lemma IndexOfTail(last: Run, key: string, sensor: Sensor)
    ensures var tail := if RunKeyOf(last) == Some(key) then [last] else [];
      IndexByRunKey(SensorRuns(tail, sensor))
      == if RunKeyOf(last) == Some(key) && IsSensorRun(last, sensor) then map[Some(key) := last] else map[]
  {
    SensorRunsOfSingleRun(last, sensor);
    IndexOfSingleRun(last);
  }

  lemma OverrideSingleKey(m: map<Option<string>, Run>, k: Option<string>, v: Run)
    requires m.Keys <= {k}
    ensures m + map[k := v] == map[k := v]
  {
  }

  /** One key's query, filtered to the sensor and indexed, holds just that key's last sensor run. */
  lemma {:induction false} IndexOfOneKey(stored: RunStore, key: string, sensor: Sensor)
    ensures var m := IndexByRunKey(SensorRuns(RunsTaggedWith(stored, key), sensor));
      m == (if LastSensorRun(stored, key, sensor).Some?
            then map[Some(key) := LastSensorRun(stored, key, sensor).value] else map[])
    decreases |stored|
  {
    if |stored| > 0 {
      var prefix := stored[..|stored| - 1];
      var last := stored[|stored| - 1];
      var tail := if RunKeyOf(last) == Some(key) then [last] else [];
      var before := SensorRuns(RunsTaggedWith(prefix, key), sensor);
      IndexOfOneKey(prefix, key, sensor);
      RunsTaggedWithSnoc(stored, key);
      SensorRunsAppend(RunsTaggedWith(prefix, key), tail, sensor);
      IndexAppend(before, SensorRuns(tail, sensor));
      IndexOfTail(last, key, sensor);
      if RunKeyOf(last) == Some(key) && IsSensorRun(last, sensor) {
        OverrideSingleKey(IndexByRunKey(before), Some(key), last);
      }
    }
  }

  /**
   The fetched runs are keyed by exactly the requested run keys that some
   stored run of this sensor carries, and each key maps to the last such run
   in storage order; a request without a run key matches nothing.
   */
  lemma {:induction false} FetchExistingRunsFindsLastSensorRun(stored: RunStore, sensor: Sensor, requests: seq<RunRequest>)
    ensures var m := FetchExistingRuns(stored, sensor, requests);
      && None !in m
      && (forall key: string :: Some(key) in m <==>
            key in RequestedRunKeys(requests) && LastSensorRun(stored, key, sensor).Some?)
      && (forall key: string :: Some(key) in m ==> m[Some(key)] == LastSensorRun(stored, key, sensor).value)
  {
    var keys := RequestedRunKeys(requests);
    if |keys| > 0 {
      IndexOfKeys(stored, keys, sensor);
    }
  }

  lemma {:induction false} IndexOfKeys(stored: RunStore, keys: seq<string>, sensor: Sensor)
    ensures var m := IndexByRunKey(SensorRuns(RunsForKeys(stored, keys), sensor));
      && None !in m
      && (forall key: string :: Some(key) in m <==> key in keys && LastSensorRun(stored, key, sensor).Some?)
      && (forall key: string :: Some(key) in m ==> m[Some(key)] == LastSensorRun(stored, key, sensor).value)
    decreases |keys|
  {
    if |keys| > 0 {
      var prefix := keys[..|keys| - 1];
      var k := keys[|keys| - 1];
      IndexOfKeys(stored, prefix, sensor);
      SensorRunsAppend(RunsForKeys(stored, prefix), RunsTaggedWith(stored, k), sensor);
      IndexAppend(SensorRuns(RunsForKeys(stored, prefix), sensor), SensorRuns(RunsTaggedWith(stored, k), sensor));
      IndexOfOneKey(stored, k, sensor);
      assert RunsForKeys(stored, keys) == RunsForKeys(stored, prefix) + RunsTaggedWith(stored, k);
      assert forall key :: key in keys <==> key in prefix || key == k by {
        assert keys == prefix + [k];
      }
    }
  }

  /** The first stored run with the id, as `get_run_by_id` returns it. */
  function RunById(stored: RunStore, runId: string): (r: Option<Run>)
    ensures r.Some? ==> r.value in stored && r.value.runId == runId
    ensures r.None? ==> forall run :: run in stored ==> run.runId != runId
  {
    if |stored| == 0 then None
    else if stored[0].runId == runId then Some(stored[0])
    else RunById(stored[1..], runId)
  }

  /** A run with its status left out: the part of a stored run that launching it does not change. */
  function WithoutStatus(run: Run): Run {
    run.(status := RunNotStarted)
  }

  function WithoutStatuses(s: RunStore): (r: seq<Run>)
    ensures |r| == |s|
  {
    seq(|s|, i requires 0 <= i < |s| => WithoutStatus(s[i]))
  }

  /**
   `later` still holds every run of `stored` at the same place counted from
   the oldest run, each with perhaps a new status: runs are never removed,
   new runs are only added as the newest, and launching changes only a status.
   */
  predicate Keeps(stored: RunStore, later: RunStore) {
    |stored| <= |later| && WithoutStatuses(later)[|later| - |stored|..] == WithoutStatuses(stored)
  }

  lemma KeepsItself(stored: RunStore)
    ensures Keeps(stored, stored)
  {
  }

  lemma KeepsTransitive(a: RunStore, b: RunStore, c: RunStore)
    requires Keeps(a, b) && Keeps(b, c)
    ensures Keeps(a, c)
  {
    var wc := WithoutStatuses(c);
    assert wc[|c| - |a|..] == wc[|c| - |b|..][|b| - |a|..];
  }

  /** A run kept in a later store is found there by its id. */
  lemma KeptRunIsFoundById(stored: RunStore, later: RunStore, runId: string)
    requires Keeps(stored, later) && RunById(stored, runId).Some?
    ensures RunById(later, runId).Some?
  {
    var run := RunById(stored, runId).value;
    var i :| 0 <= i < |stored| && stored[i] == run;
    assert WithoutStatuses(stored)[i] == WithoutStatuses(later)[|later| - |stored|..][i];
    assert later[|later| - |stored| + i].runId == runId;
  }

  /** A run kept in a later store is still the sensor's run for its key there. */
  lemma KeptRunIsFoundByKey(stored: RunStore, later: RunStore, key: string, sensor: Sensor)
    requires Keeps(stored, later) && LastSensorRun(stored, key, sensor).Some?
    ensures LastSensorRun(later, key, sensor).Some?
  {
    var run := LastSensorRun(stored, key, sensor).value;
    var i :| 0 <= i < |stored| && stored[i] == run;
    assert WithoutStatuses(stored)[i] == WithoutStatuses(later)[|later| - |stored|..][i];
    var kept := later[|later| - |stored| + i];
    assert RunKeyOf(kept) == RunKeyOf(run) && (IsSensorRun(kept, sensor) <==> IsSensorRun(run, sensor));
  }

  /**
   The store after the run with the id was launched: its status becomes the
   one the launch left it in (the launch itself is not modelled).
   */
  function Launch(stored: RunStore, runId: string, status: RunStatus): (r: RunStore)
    ensures |r| == |stored|
  {
    seq(|stored|, i requires 0 <= i < |stored| =>
      if stored[i].runId == runId then stored[i].(status := status) else stored[i])
  }

  /** Launching changes only a status, so the launched store keeps every run. */
  lemma LaunchKeeps(stored: RunStore, runId: string, status: RunStatus)
    ensures Keeps(stored, Launch(stored, runId, status))
  {
    var l := Launch(stored, runId, status);
    assert WithoutStatuses(l) == WithoutStatuses(stored);
  }

  /** Adding a run as the newest keeps every stored run. */
  lemma PrependKeeps(run: Run, stored: RunStore)
    ensures Keeps(stored, [run] + stored)
  {
    var l := [run] + stored;
    assert WithoutStatuses(l)[1..] == WithoutStatuses(stored);
  }

  datatype RunDecision =
    | SkippedRun(runKey: Option<string>, existingRun: Run)
    | ReusedRun(run: Run)
    | CreatedRun(run: Run)

  /** The tags of a run created for a request: the request's, then the sensor name, then the run key if set. */
  function CreatedRunTags(req: RunRequest, sensor: Sensor): map<string, string> {
    var tags := req.tags[SensorNameTag := sensor.name];
    if IsSetStr(req.runKey) then tags[RunKeyTag := req.runKey.value] else tags
  }

  /** The NOT_STARTED run created for a request under the reserved id. */
  function NewSensorRun(runId: string, req: RunRequest, sensor: Sensor): Run {
    Run(runId, RunNotStarted, CreatedRunTags(req, sensor), Some(sensor.repositorySelectorId),
        if req.assetSelection.Some? && |req.assetSelection.value| > 0 then req.assetSelection else None)
  }

  /** The run found for a request: the existing run for its run key, else the run with its reserved id. */
  function FoundRun(existing: map<Option<string>, Run>, stored: RunStore, runId: string, req: RunRequest): Option<Run> {
    if req.runKey in existing then Some(existing[req.runKey]) else RunById(stored, runId)
  }

  /**
   Decides a request's run. A found run that already left NOT_STARTED means
   the run was launched before a crash, so the request is skipped; a found
   NOT_STARTED run is reused; otherwise a new run is created under the
   reserved id and stored (newest first).
   */
  function GetOrCreateSensorRun(existing: map<Option<string>, Run>, stored: RunStore, sensor: Sensor,
                                runId: string, req: RunRequest): (r: (RunDecision, RunStore))
    ensures var found := FoundRun(existing, stored, runId, req);
      && (r.0.SkippedRun? <==> found.Some? && found.value.status != RunNotStarted)
      && (r.0.ReusedRun? <==> found.Some? && found.value.status == RunNotStarted)
      && (r.0.CreatedRun? <==> found.None?)
      && (r.0.SkippedRun? ==> r.0 == SkippedRun(req.runKey, found.value))
      && (r.0.ReusedRun? ==> r.0.run == found.value)
      && (r.0.CreatedRun? ==> r.0.run.runId == runId && r.0.run.status == RunNotStarted
                              && r.1 == [r.0.run] + stored)
      && (!r.0.CreatedRun? ==> r.1 == stored)
  {
    var found := FoundRun(existing, stored, runId, req);
    if found.Some? then
      if found.value.status != RunNotStarted then (SkippedRun(req.runKey, found.value), stored)
      else (ReusedRun(found.value), stored)
    else
      var run := NewSensorRun(runId, req, sensor);
      (CreatedRun(run), [run] + stored)
  }

  /**
   Resubmitting a request under the same reserved id never creates a second
   run: the run created the first time is found and reused.
   */
  lemma ResubmissionReusesRun(existing: map<Option<string>, Run>, stored: RunStore, sensor: Sensor,
                              runId: string, req: RunRequest)
    ensures var (d1, s1) := GetOrCreateSensorRun(existing, stored, sensor, runId, req);
      var (d2, s2) := GetOrCreateSensorRun(existing, s1, sensor, runId, req);
      && s2 == s1
      && (d1.CreatedRun? ==> d2 == ReusedRun(d1.run))
      && (d1.ReusedRun? ==> d2 == d1)
  {
  }

  /**
   A created run with a run key carries the tags that let the next fetch find
   it: its own run key and the sensor's name and repository.
   */
  lemma {:induction false} CreatedRunIsFetchedAgain(existing: map<Option<string>, Run>, stored: RunStore, sensor: Sensor,
                                runId: string, req: RunRequest)
    requires IsSetStr(req.runKey)
    ensures var (d, s) := GetOrCreateSensorRun(existing, stored, sensor, runId, req);
      d.CreatedRun? ==> req.runKey in FetchExistingRuns(s, sensor, [req])
  {
    var (d, s) := GetOrCreateSensorRun(existing, stored, sensor, runId, req);
    if d.CreatedRun? {
      var key := req.runKey.value;
      assert RunKeyOf(d.run) == Some(key) && IsSensorRun(d.run, sensor);
      assert d.run in s;
      assert RequestedRunKeys([req]) == [key];
      FetchExistingRunsFindsLastSensorRun(s, sensor, [req]);
      assert LastSensorRun(s, key, sensor).Some?;
    }
  }

  /** The request with the tick's id added to its tags. */
  function TaggedWithTick(req: RunRequest, tickId: string): RunRequest {
    req.(tags := req.tags[TickIdTag := tickId])
  }

  /** A stale-only request is dropped when no selected asset is stale or missing. */
  predicate Dropped(req: RunRequest, tickId: string, stale: RunRequest -> set<string>) {
    req.staleAssetsOnly && |stale(TaggedWithTick(req, tickId))| == 0
  }

  /** The request as submitted: tagged with the tick, and narrowed to the stale assets when stale-only. */
  function Resolved(req: RunRequest, tickId: string, stale: RunRequest -> set<string>): RunRequest {
    var tagged := TaggedWithTick(req, tickId);
    if tagged.staleAssetsOnly then tagged.(assetSelection := Some(stale(tagged)), staleAssetsOnly := false)
    else tagged
  }

  /**
   Tags each request with the tick id and resolves stale-only requests through
   `stale` (the stale-or-missing asset resolution, which is not modelled); a
   stale-only request with nothing stale is dropped.
   */
  function ResolveRunRequests(pairs: seq<(string, RunRequest)>, tickId: string,
                              stale: RunRequest -> set<string>): (r: seq<(string, RunRequest)>)
    ensures |r| <= |pairs|
    ensures forall i :: 0 <= i < |r| ==>
      && !r[i].1.staleAssetsOnly
      && TickIdTag in r[i].1.tags && r[i].1.tags[TickIdTag] == tickId
    decreases |pairs|
  {
    if |pairs| == 0 then []
    else
      var (runId, raw) := pairs[0];
      var tagged := TaggedWithTick(raw, tickId);
      var rest := ResolveRunRequests(pairs[1..], tickId, stale);
      if tagged.staleAssetsOnly then
        var staleAssets := stale(tagged);
        if |staleAssets| == 0 then rest
        else [(runId, tagged.(assetSelection := Some(staleAssets), staleAssetsOnly := false))] + rest
      else [(runId, tagged)] + rest
  }

  /** The pairs whose request is not dropped, in order. */
  function KeptPairs(pairs: seq<(string, RunRequest)>, tickId: string, stale: RunRequest -> set<string>)
    : (k: seq<(string, RunRequest)>)
    ensures forall p :: p in k <==> p in pairs && !Dropped(p.1, tickId, stale)
    decreases |pairs|
  {
    if |pairs| == 0 then []
    else
      assert pairs == [pairs[0]] + pairs[1..];
      (if Dropped(pairs[0].1, tickId, stale) then [] else [pairs[0]]) + KeptPairs(pairs[1..], tickId, stale)
  }

  /**
   Resolution is "drop, then resolve": the result is the kept pairs in their
   order, each with its request resolved and its run id unchanged.
   */
  lemma {:induction false} ResolveIsFilterThenResolve(pairs: seq<(string, RunRequest)>, tickId: string,
                                                       stale: RunRequest -> set<string>)
    ensures var r := ResolveRunRequests(pairs, tickId, stale);
      var k := KeptPairs(pairs, tickId, stale);
      && |r| == |k|
      && forall i :: 0 <= i < |r| ==> r[i] == (k[i].0, Resolved(k[i].1, tickId, stale))
    decreases |pairs|
  {
    if |pairs| > 0 {
      ResolveIsFilterThenResolve(pairs[1..], tickId, stale);
      var r := ResolveRunRequests(pairs, tickId, stale);
      var rest := ResolveRunRequests(pairs[1..], tickId, stale);
      var k := KeptPairs(pairs, tickId, stale);
      var k' := KeptPairs(pairs[1..], tickId, stale);
      if Dropped(pairs[0].1, tickId, stale) {
        assert r == rest && k == [] + k';
        assert k == k';
      } else {
        assert k == [pairs[0]] + k';
        assert r == [(pairs[0].0, Resolved(pairs[0].1, tickId, stale))] + rest;
        forall i | 0 <= i < |r|
          ensures r[i] == (k[i].0, Resolved(k[i].1, tickId, stale))
        {
          if i > 0 {
            assert r[i] == rest[i - 1] && k[i] == k'[i - 1];
          }
        }
      }
    }
  }
}

=== FILE: sensor_state.dfy ===
/**
 Min-interval gating and the bookkeeping done on a sensor's persisted state
 just before a tick starts.
 */
module SensorState {
  import opened Records

  /** The tick times recorded in a sensor's state that count as set (unset and zero do not). */
  function ActivityTimes(d: SensorData): set<nat>
  {
    (if IsSetNum(d.lastTickTimestamp) then {d.lastTickTimestamp.value} else {})
    + (if IsSetNum(d.lastTickStartTimestamp) then {d.lastTickStartTimestamp.value} else {})
  }

  /**
   Whether the sensor must wait before ticking again. There is no gating
   without sensor data, without any recorded tick time, or without a (non-zero)
   minimum interval; otherwise the sensor is gated exactly when some recorded
   tick time lies less than the interval before `now`.
   */
  function IsUnderMinInterval(state: InstigatorState, sensor: Sensor, now: nat): (r: bool)
    ensures r <==>
      && state.data.Some?
      && IsSetNum(sensor.minIntervalSeconds)
      && exists t :: t in ActivityTimes(state.data.value) && now - t < sensor.minIntervalSeconds.value
  {
    if state.data.None? then false
    else
      var d := state.data.value;
      if !IsSetNum(d.lastTickStartTimestamp) && !IsSetNum(d.lastTickTimestamp) then false
      else if !IsSetNum(sensor.minIntervalSeconds) then false
      else
        var latest := Max(OrZero(d.lastTickTimestamp), OrZero(d.lastTickStartTimestamp));
        assert latest in ActivityTimes(d);
        assert forall t :: t in ActivityTimes(d) ==> t <= latest;
        now - latest < sensor.minIntervalSeconds.value
  }

  /**
   The state written when a tick starts: the tick start time becomes `now`, the
   success time is cleared, the interval and sensor type come from the
   definition, and the remaining fields are carried over (none without data).
   */
  function MarkSensorStateForTick(state: InstigatorState, sensor: Sensor, now: nat): (s: InstigatorState)
    ensures s.status == state.status && s.data.Some?
    ensures s.data.value.lastTickStartTimestamp == Some(now)
    ensures s.data.value.lastTickSuccessTimestamp == None
    ensures s.data.value.minInterval == sensor.minIntervalSeconds
    ensures s.data.value.sensorType == sensor.sensorType
    ensures state.data.Some? ==>
      && s.data.value.lastTickTimestamp == state.data.value.lastTickTimestamp
      && s.data.value.lastRunKey == state.data.value.lastRunKey
      && s.data.value.cursor == state.data.value.cursor
      && s.data.value.lastSensorStartTimestamp == state.data.value.lastSensorStartTimestamp
    ensures state.data.None? ==>
      && s.data.value.lastTickTimestamp == None
      && s.data.value.lastRunKey == None
      && s.data.value.cursor == None
      && s.data.value.lastSensorStartTimestamp == None
  {
    var prev := state.data;
    state.(data := Some(SensorData(
      lastTickTimestamp := if prev.Some? then prev.value.lastTickTimestamp else None,
      lastRunKey := if prev.Some? then prev.value.lastRunKey else None,
      minInterval := sensor.minIntervalSeconds,
      cursor := if prev.Some? then prev.value.cursor else None,
      lastTickStartTimestamp := Some(now),
      lastSensorStartTimestamp := if prev.Some? then prev.value.lastSensorStartTimestamp else None,
      sensorType := sensor.sensorType,
      lastTickSuccessTimestamp := None)))
  }

  /** Marking twice at the same time is the same as marking once. */
  lemma MarkIsIdempotent(state: InstigatorState, sensor: Sensor, now: nat)
    ensures MarkSensorStateForTick(MarkSensorStateForTick(state, sensor, now), sensor, now)
         == MarkSensorStateForTick(state, sensor, now)
  {
  }

  /**
   Once a tick has been marked at a non-zero time, the sensor is gated until a
   full interval has passed since the later of that time and the last recorded
   tick time, and free afterwards.
   */
  lemma MarkedSensorIsGated(state: InstigatorState, sensor: Sensor, now: nat, later: nat)
    requires now != 0 && IsSetNum(sensor.minIntervalSeconds)
    ensures var lastTick := if state.data.Some? then OrZero(state.data.value.lastTickTimestamp) else 0;
      (IsUnderMinInterval(MarkSensorStateForTick(state, sensor, now), sensor, later)
       <==> later - Max(lastTick, now) < sensor.minIntervalSeconds.value)
    ensures later < now + sensor.minIntervalSeconds.value
      ==> IsUnderMinInterval(MarkSensorStateForTick(state, sensor, now), sensor, later)
  {
    var s := MarkSensorStateForTick(state, sensor, now);
    var d := s.data.value;
    var lastTick := if state.data.Some? then OrZero(state.data.value.lastTickTimestamp) else 0;
    assert OrZero(d.lastTickTimestamp) == lastTick;
    assert Max(lastTick, now) in ActivityTimes(d);
    assert forall t :: t in ActivityTimes(d) ==> t <= Max(lastTick, now);
  }
}

=== FILE: submission.dfy ===
/**
 Submitting a tick's reserved run requests: resolve them, fetch the runs that
 already answer their run keys, and for each request skip, reuse or create
 its run. Because every request carries the run id reserved for it before
 submission, submitting the same work again creates no second run.
 */
module Submission {
  import opened Records
  import opened RunTriage

  /** The outcome of submitting one run request. */
  datatype SubmitResult =
    | SkippedSubmission(runKey: Option<string>)
    | BackfillSubmission(backfillId: string)
    | LaunchedSubmission(runId: string, runKey: Option<string>)

  /** The run id a submission records on the tick: none for a skipped run. */
  function RecordedId(res: SubmitResult): Option<string> {
    match res
    case SkippedSubmission(_) => None
    case BackfillSubmission(id) => Some(id)
    case LaunchedSubmission(id, _) => Some(id)
  }

  /** The run key a submission records on the tick: none for a backfill. */
  function RecordedKey(res: SubmitResult): Option<string> {
    match res
    case SkippedSubmission(k) => k
    case BackfillSubmission(_) => None
    case LaunchedSubmission(_, k) => k
  }

  /** The decimal text of a tick id, as the tick-id run tag carries it. */
  function TickIdString(n: nat): string
    decreases n
  {
    var digit := "0123456789"[n % 10];
    if n < 10 then [digit] else TickIdString(n / 10) + [digit]
  }

  /**
   Submits one (reserved id, request) pair. A backfill request is handed to
   the backfill daemon under its reserved id; any other request gets the run
   decision and, unless it was skipped, its run is launched. `launched` is the
   status the launch leaves the run in (the launch itself is not modelled).
   */
  function SubmitOne(existing: map<Option<string>, Run>, stored: RunStore, sensor: Sensor, launched: RunStatus,
                     pair: (string, RunRequest)): (r: (SubmitResult, RunStore))
    ensures RecordedKey(r.0) == (if pair.1.requiresBackfill then None else pair.1.runKey)
    ensures pair.1.requiresBackfill ==> r == (BackfillSubmission(pair.0), stored)
    ensures !pair.1.requiresBackfill ==>
      var found := FoundRun(existing, stored, pair.0, pair.1);
      && (found.Some? && found.value.status != RunNotStarted ==> r == (SkippedSubmission(pair.1.runKey), stored))
      && (found.Some? && found.value.status == RunNotStarted ==>
            r == (LaunchedSubmission(found.value.runId, pair.1.runKey), Launch(stored, found.value.runId, launched)))
      && (found.None? ==>
            && r.0 == LaunchedSubmission(pair.0, pair.1.runKey)
            && |r.1| == |stored| + 1 && r.1[1..] == stored
            && r.1[0] == NewSensorRun(pair.0, pair.1, sensor).(status := launched))
  {
    var (runId, req) := pair;
    if req.requiresBackfill then (BackfillSubmission(runId), stored)
    else
      var (d, s) := GetOrCreateSensorRun(existing, stored, sensor, runId, req);
      match d
      case SkippedRun(k, _) => (SkippedSubmission(k), s)
      case ReusedRun(run) => (LaunchedSubmission(run.runId, req.runKey), Launch(s, run.runId, launched))
      case CreatedRun(run) => (LaunchedSubmission(run.runId, req.runKey), [run.(status := launched)] + stored)
  }

  /**
   A run this daemon launched and that is found again under its reserved id
   is skipped, not launched a second time: the launch moved it out of
   NOT_STARTED, so it reads as launched before a crash.
   */
  lemma LaunchedRunIsSkippedWhenSubmittedAgain(existing: map<Option<string>, Run>, stored: RunStore, sensor: Sensor,
                                               launched: RunStatus, pair: (string, RunRequest))
    requires launched != RunNotStarted
    requires pair.1.runKey !in existing
    ensures var (res1, s1) := SubmitOne(existing, stored, sensor, launched, pair);
      var (res2, s2) := SubmitOne(existing, s1, sensor, launched, pair);
      && (res1.LaunchedSubmission? ==> res2 == SkippedSubmission(pair.1.runKey) && s2 == s1)
      && (res1.SkippedSubmission? ==> res2 == res1 && s2 == s1)
  {
    var (res1, s1) := SubmitOne(existing, stored, sensor, launched, pair);
    if res1.LaunchedSubmission? {
      if RunById(stored, pair.0).Some? {
        RunByIdAfterLaunch(stored, pair.0, launched);
      } else {
        assert RunById(s1, pair.0) == Some(s1[0]);
      }
    }
  }

  /** Launching the run with an id leaves it the run found by that id, with the new status. */
  lemma {:induction false} RunByIdAfterLaunch(stored: RunStore, runId: string, status: RunStatus)
    requires RunById(stored, runId).Some?
    ensures RunById(Launch(stored, runId, status), runId) == Some(RunById(stored, runId).value.(status := status))
    decreases |stored|
  {
    var l := Launch(stored, runId, status);
    if stored[0].runId != runId {
      assert l[1..] == Launch(stored[1..], runId, status);
      RunByIdAfterLaunch(stored[1..], runId, status);
    }
  }

  /** Submitting a pair keeps every stored run: it may add one run and launch one. */
  lemma SubmitOneKeeps(existing: map<Option<string>, Run>, stored: RunStore, sensor: Sensor, launched: RunStatus,
                       pair: (string, RunRequest))
    ensures Keeps(stored, SubmitOne(existing, stored, sensor, launched, pair).1)
  {
    var found := FoundRun(existing, stored, pair.0, pair.1);
    if pair.1.requiresBackfill || (found.Some? && found.value.status != RunNotStarted) {
      KeepsItself(stored);
    } else if found.Some? {
      LaunchKeeps(stored, found.value.runId, launched);
    } else {
      PrependKeeps(NewSensorRun(pair.0, pair.1, sensor).(status := launched), stored);
    }
  }

  /**
   Submits the pairs one after another. Each pair is submitted against the
   runs as the pairs before it left them, so it sees the runs they created and
   launched; the runs fetched by run key beforehand are shared by all.
   */
  function SubmitEach(pairs: seq<(string, RunRequest)>, existing: map<Option<string>, Run>,
                      stored: RunStore, sensor: Sensor, launched: RunStatus): (r: (seq<SubmitResult>, RunStore))
    ensures |r.0| == |pairs|
    ensures forall i :: 0 <= i < |pairs| ==>
      RecordedKey(r.0[i]) == (if pairs[i].1.requiresBackfill then None else pairs[i].1.runKey)
    decreases |pairs|
  {
    if |pairs| == 0 then ([], stored)
    else
      var n := |pairs| - 1;
      var before := SubmitEach(pairs[..n], existing, stored, sensor, launched);
      var last := SubmitOne(existing, before.1, sensor, launched, pairs[n]);
      assert forall i :: 0 <= i < n ==> pairs[..n][i] == pairs[i] && (before.0 + [last.0])[i] == before.0[i];
      (before.0 + [last.0], last.1)
  }

  /** A pass keeps every stored run. */
  lemma {:induction false} SubmitEachKeeps(pairs: seq<(string, RunRequest)>, existing: map<Option<string>, Run>,
                                           stored: RunStore, sensor: Sensor, launched: RunStatus)
    ensures Keeps(stored, SubmitEach(pairs, existing, stored, sensor, launched).1)
    decreases |pairs|
  {
    if |pairs| == 0 {
      KeepsItself(stored);
    } else {
      var n := |pairs| - 1;
      var s := SubmitEach(pairs[..n], existing, stored, sensor, launched).1;
      SubmitEachKeeps(pairs[..n], existing, stored, sensor, launched);
      SubmitOneKeeps(existing, s, sensor, launched, pairs[n]);
      KeepsTransitive(stored, s, SubmitOne(existing, s, sensor, launched, pairs[n]).1);
    }
  }

  /**
   Each pair's outcome is its submission against the runs as the pairs before
   it left them (together with `SubmitOne`, this says for every pair whether
   it was skipped, launched under which id, or handed over as a backfill).
   */
  lemma {:induction false} SubmitEachInOrder(pairs: seq<(string, RunRequest)>, existing: map<Option<string>, Run>,
                                             stored: RunStore, sensor: Sensor, launched: RunStatus)
    ensures var r := SubmitEach(pairs, existing, stored, sensor, launched).0;
      forall i :: 0 <= i < |pairs| ==>
        r[i] == SubmitOne(existing, SubmitEach(pairs[..i], existing, stored, sensor, launched).1,
                          sensor, launched, pairs[i]).0
    decreases |pairs|
  {
    if |pairs| > 0 {
      var n := |pairs| - 1;
      SubmitEachInOrder(pairs[..n], existing, stored, sensor, launched);
      var r := SubmitEach(pairs, existing, stored, sensor, launched).0;
      var before := SubmitEach(pairs[..n], existing, stored, sensor, launched);
      assert r == before.0 + [SubmitOne(existing, before.1, sensor, launched, pairs[n]).0];
      forall i | 0 <= i < |pairs|
        ensures r[i] == SubmitOne(existing, SubmitEach(pairs[..i], existing, stored, sensor, launched).1,
                                  sensor, launched, pairs[i]).0
      {
        if i < n {
          assert pairs[..n][..i] == pairs[..i] && pairs[..n][i] == pairs[i];
        } else {
          assert pairs[..i] == pairs[..n];
        }
      }
    }
  }

  /** The requests of the pairs, in order. */
  function Requests(pairs: seq<(string, RunRequest)>): (r: seq<RunRequest>)
    ensures |r| == |pairs| && forall i :: 0 <= i < |pairs| ==> r[i] == pairs[i].1
  {
    if |pairs| == 0 then [] else [pairs[0].1] + Requests(pairs[1..])
  }

  /**
   Submits a tick's (reserved id, request) pairs: resolves them for the tick,
   fetches the sensor's existing runs for the resolved requests' run keys once,
   then submits each resolved pair. Returns one result per resolved pair and
   the stored runs afterwards.
   */
  function SubmitRunRequests(pairs: seq<(string, RunRequest)>, tickId: string, stale: RunRequest -> set<string>,
                             stored: RunStore, sensor: Sensor, launched: RunStatus): (r: (seq<SubmitResult>, RunStore))
    ensures |r.0| == |ResolveRunRequests(pairs, tickId, stale)| <= |pairs|
  {
    var resolved := ResolveRunRequests(pairs, tickId, stale);
    SubmitEach(resolved, FetchExistingRuns(stored, sensor, Requests(resolved)), stored, sensor, launched)
  }

  /** Submitting a tick's requests keeps every stored run. */
  lemma SubmitRunRequestsKeeps(pairs: seq<(string, RunRequest)>, tickId: string, stale: RunRequest -> set<string>,
                               stored: RunStore, sensor: Sensor, launched: RunStatus)
    ensures Keeps(stored, SubmitRunRequests(pairs, tickId, stale, stored, sensor, launched).1)
  {
    var resolved := ResolveRunRequests(pairs, tickId, stale);
    SubmitEachKeeps(resolved, FetchExistingRuns(stored, sensor, Requests(resolved)), stored, sensor, launched);
  }

  /** Submitting one more pair keeps every earlier pair findable, and makes that pair findable too. */
  lemma SubmitOneKeepsPairsFindable(prev: seq<(string, RunRequest)>, existing: map<Option<string>, Run>,
                                    s0: RunStore, sensor: Sensor, launched: RunStatus, last: (string, RunRequest))
    requires forall p :: p in prev && !p.1.requiresBackfill ==> p.1.runKey in existing || RunById(s0, p.0).Some?
    ensures var s := SubmitOne(existing, s0, sensor, launched, last).1;
      forall p :: p in prev + [last] && !p.1.requiresBackfill ==> p.1.runKey in existing || RunById(s, p.0).Some?
  {
    var s := SubmitOne(existing, s0, sensor, launched, last).1;
    SubmitOneKeeps(existing, s0, sensor, launched, last);
    forall p | p in prev + [last] && !p.1.requiresBackfill && p.1.runKey !in existing
      ensures RunById(s, p.0).Some?
    {
      if RunById(s0, p.0).Some? {
        KeptRunIsFoundById(s0, s, p.0);
      } else {
        assert p !in prev;
        assert s[0].runId == p.0;
      }
    }
  }

  /**
   After a submission pass every non-backfill pair can be found again: by its
   run key among the runs fetched before the pass, or by its reserved run id.
   */
  lemma {:induction false} SubmittedPairsCanBeFound(pairs: seq<(string, RunRequest)>, existing: map<Option<string>, Run>,
                                                    stored: RunStore, sensor: Sensor, launched: RunStatus)
    ensures var s := SubmitEach(pairs, existing, stored, sensor, launched).1;
      forall p :: p in pairs && !p.1.requiresBackfill ==> p.1.runKey in existing || RunById(s, p.0).Some?
    decreases |pairs|
  {
    if |pairs| > 0 {
      var n := |pairs| - 1;
      var s0 := SubmitEach(pairs[..n], existing, stored, sensor, launched).1;
      SubmittedPairsCanBeFound(pairs[..n], existing, stored, sensor, launched);
      SubmitOneKeepsPairsFindable(pairs[..n], existing, s0, sensor, launched, pairs[n]);
      assert pairs[..n] + [pairs[n]] == pairs;
    }
  }

  /** Submitting one more pair adds a run only for that pair, and only when it was not found. */
  lemma SubmitOneAddsOnlyUnfound(existing: map<Option<string>, Run>, stored: RunStore, s0: RunStore, sensor: Sensor,
                                 launched: RunStatus, last: (string, RunRequest), ids: set<string>)
    requires Keeps(stored, s0) && forall i :: 0 <= i < |s0| - |stored| ==> s0[i].runId in ids
    requires !last.1.requiresBackfill && FoundRun(existing, stored, last.0, last.1).None? ==> last.0 in ids
    ensures var s := SubmitOne(existing, s0, sensor, launched, last).1;
      && Keeps(stored, s)
      && forall i :: 0 <= i < |s| - |stored| ==> s[i].runId in ids
  {
    var s := SubmitOne(existing, s0, sensor, launched, last).1;
    SubmitOneKeeps(existing, s0, sensor, launched, last);
    KeepsTransitive(stored, s0, s);
    if !last.1.requiresBackfill && FoundRun(existing, s0, last.0, last.1).None? {
      if FoundRun(existing, stored, last.0, last.1).Some? {
        KeptRunIsFoundById(stored, s0, last.0);
      }
      assert s[0].runId == last.0;
      assert forall i :: 1 <= i < |s| ==> s[i] == s0[i - 1];
    } else {
      assert |s| == |s0| && forall i :: 0 <= i < |s| ==> s[i].runId == s0[i].runId;
    }
  }

  /**
   A pass creates runs only for pairs found neither by run key nor by reserved
   id beforehand: every run it adds carries the reserved id of such a pair, in
   `ids`, and every run already stored is kept.
   */
  lemma {:induction false} CreatedRunsAreUnfound(pairs: seq<(string, RunRequest)>, existing: map<Option<string>, Run>,
                                                 stored: RunStore, sensor: Sensor, launched: RunStatus, ids: set<string>)
    requires forall p :: p in pairs && !p.1.requiresBackfill && FoundRun(existing, stored, p.0, p.1).None? ==> p.0 in ids
    ensures var s := SubmitEach(pairs, existing, stored, sensor, launched).1;
      && Keeps(stored, s)
      && forall i :: 0 <= i < |s| - |stored| ==> s[i].runId in ids
    decreases |pairs|
  {
    if |pairs| == 0 {
      KeepsItself(stored);
    } else {
      var n := |pairs| - 1;
      var s0 := SubmitEach(pairs[..n], existing, stored, sensor, launched).1;
      assert forall p :: p in pairs[..n] ==> p in pairs;
      CreatedRunsAreUnfound(pairs[..n], existing, stored, sensor, launched, ids);
      assert pairs[n] in pairs;
      SubmitOneAddsOnlyUnfound(existing, stored, s0, sensor, launched, pairs[n], ids);
    }
  }

  /** Runs never leave storage, so a run key fetched once is fetched again for any request carrying it. */
  lemma ExistingKeyPersists(stored: RunStore, later: RunStore, sensor: Sensor,
                            reqs: seq<RunRequest>, reqs2: seq<RunRequest>, key: string)
    requires Keeps(stored, later)
    requires Some(key) in FetchExistingRuns(stored, sensor, reqs)
    requires key in RequestedRunKeys(reqs2)
    ensures Some(key) in FetchExistingRuns(later, sensor, reqs2)
  {
    FetchExistingRunsFindsLastSensorRun(stored, sensor, reqs);
    FetchExistingRunsFindsLastSensorRun(later, sensor, reqs2);
    KeptRunIsFoundByKey(stored, later, key, sensor);
  }

  /** A pair survives resolution exactly when its request is not dropped, and then as its resolved form. */
  lemma {:induction false} ResolvedMembers(pairs: seq<(string, RunRequest)>, tickId: string, stale: RunRequest -> set<string>)
    ensures forall q :: q in ResolveRunRequests(pairs, tickId, stale) <==>
      exists p :: p in pairs && !Dropped(p.1, tickId, stale) && q == (p.0, Resolved(p.1, tickId, stale))
    decreases |pairs|
  {
    if |pairs| > 0 {
      ResolvedMembers(pairs[1..], tickId, stale);
      assert forall p :: p in pairs <==> p == pairs[0] || p in pairs[1..];
    }
  }

  /**
   The reserved ids of the non-backfill pairs that the first resolution
   dropped and the second one keeps: the only pairs a resubmission can still
   create a run for.
   */
  function NewlyKeptIds(pairs: seq<(string, RunRequest)>, tickId: string,
                        stale1: RunRequest -> set<string>, stale2: RunRequest -> set<string>): set<string>
  {
    set p | p in pairs && !p.1.requiresBackfill && Dropped(p.1, tickId, stale1) && !Dropped(p.1, tickId, stale2) :: p.0
  }

  /**
   A request the second resolution keeps, and whose reserved id is not newly
   kept, was kept by the first resolution too, with the same run key.
   */
  lemma ResubmittedPairWasSubmitted(pairs: seq<(string, RunRequest)>, again: seq<(string, RunRequest)>,
                                    tickId: string, stale1: RunRequest -> set<string>,
                                    stale2: RunRequest -> set<string>, q: (string, RunRequest))
    requires forall p :: p in again ==> p in pairs
    requires q in ResolveRunRequests(again, tickId, stale2) && !q.1.requiresBackfill
    requires q.0 !in NewlyKeptIds(again, tickId, stale1, stale2)
    ensures exists q1 :: q1 in ResolveRunRequests(pairs, tickId, stale1) && q1.0 == q.0 && !q1.1.requiresBackfill
                         && q1.1.runKey == q.1.runKey
  {
    ResolvedMembers(pairs, tickId, stale1);
    ResolvedMembers(again, tickId, stale2);
    var p :| p in again && !Dropped(p.1, tickId, stale2) && q == (p.0, Resolved(p.1, tickId, stale2));
    assert !Dropped(p.1, tickId, stale1);
    assert (p.0, Resolved(p.1, tickId, stale1)) in ResolveRunRequests(pairs, tickId, stale1);
  }

  /**
   After a pass, a request carrying the reserved id and run key of a submitted
   non-backfill pair is found again, by its run key or by its reserved id.
   */
  lemma SubmittedPairIsFoundAgain(r1: seq<(string, RunRequest)>, stored: RunStore, sensor: Sensor,
                                  launched: RunStatus, q1: (string, RunRequest),
                                  r2: seq<(string, RunRequest)>, q: (string, RunRequest))
    requires q1 in r1 && !q1.1.requiresBackfill
    requires q in r2 && q.0 == q1.0 && q.1.runKey == q1.1.runKey
    ensures var s := SubmitEach(r1, FetchExistingRuns(stored, sensor, Requests(r1)), stored, sensor, launched).1;
      FoundRun(FetchExistingRuns(s, sensor, Requests(r2)), s, q.0, q.1).Some?
  {
    var e1 := FetchExistingRuns(stored, sensor, Requests(r1));
    var s := SubmitEach(r1, e1, stored, sensor, launched).1;
    SubmittedPairsCanBeFound(r1, e1, stored, sensor, launched);
    if q.1.runKey in e1 {
      SubmitEachKeeps(r1, e1, stored, sensor, launched);
      FetchExistingRunsFindsLastSensorRun(stored, sensor, Requests(r1));
      var key := q.1.runKey.value;
      var i :| 0 <= i < |r2| && r2[i] == q;
      assert Requests(r2)[i].runKey == Some(key) && key != "";
      ExistingKeyPersists(stored, s, sensor, Requests(r1), Requests(r2), key);
    }
  }

  /**
   On a second pass over work a completed pass submitted, every non-backfill
   request found neither by run key nor by reserved id has a newly kept id.
   */
  lemma UnfoundAreNewlyKept(pairs: seq<(string, RunRequest)>, again: seq<(string, RunRequest)>,
                            tickId: string, stale1: RunRequest -> set<string>, stale2: RunRequest -> set<string>,
                            stored: RunStore, sensor: Sensor, launched: RunStatus)
    requires forall p :: p in again ==> p in pairs
    ensures var s := SubmitRunRequests(pairs, tickId, stale1, stored, sensor, launched).1;
      var r2 := ResolveRunRequests(again, tickId, stale2);
      forall q :: q in r2 && !q.1.requiresBackfill && FoundRun(FetchExistingRuns(s, sensor, Requests(r2)), s, q.0, q.1).None?
        ==> q.0 in NewlyKeptIds(again, tickId, stale1, stale2)
  {
    var r1 := ResolveRunRequests(pairs, tickId, stale1);
    var r2 := ResolveRunRequests(again, tickId, stale2);
    forall q | q in r2 && !q.1.requiresBackfill && q.0 !in NewlyKeptIds(again, tickId, stale1, stale2)
      ensures var s := SubmitRunRequests(pairs, tickId, stale1, stored, sensor, launched).1;
        FoundRun(FetchExistingRuns(s, sensor, Requests(r2)), s, q.0, q.1).Some?
    {
      ResubmittedPairWasSubmitted(pairs, again, tickId, stale1, stale2, q);
      var q1 :| q1 in r1 && q1.0 == q.0 && !q1.1.requiresBackfill && q1.1.runKey == q.1.runKey;
      SubmittedPairIsFoundAgain(r1, stored, sensor, launched, q1, r2, q);
    }
  }

  /**
   Submitting again any of the work a completed pass submitted, against the
   runs that pass left, creates no duplicate run: each request the first pass
   kept finds the run made for it through its run key or its reserved run id.
   Staleness is resolved afresh on each pass, so a stale-only request dropped
   the first time and kept the second time gets its first run now; those are
   the only runs added. When the two resolutions drop the same requests,
   nothing is added at all.
   */
  lemma {:induction false} ResubmissionCreatesNoRun(pairs: seq<(string, RunRequest)>, again: seq<(string, RunRequest)>,
                                                    tickId: string, stale1: RunRequest -> set<string>,
                                                    stale2: RunRequest -> set<string>,
                                                    stored: RunStore, sensor: Sensor, launched: RunStatus)
    requires forall p :: p in again ==> p in pairs
    ensures var s := SubmitRunRequests(pairs, tickId, stale1, stored, sensor, launched).1;
      var s2 := SubmitRunRequests(again, tickId, stale2, s, sensor, launched).1;
      && Keeps(s, s2)
      && (forall i :: 0 <= i < |s2| - |s| ==> s2[i].runId in NewlyKeptIds(again, tickId, stale1, stale2))
      && (NewlyKeptIds(again, tickId, stale1, stale2) == {} ==> |s2| == |s|)
  {
    var s := SubmitRunRequests(pairs, tickId, stale1, stored, sensor, launched).1;
    var r2 := ResolveRunRequests(again, tickId, stale2);
    UnfoundAreNewlyKept(pairs, again, tickId, stale1, stale2, stored, sensor, launched);
    var ids := NewlyKeptIds(again, tickId, stale1, stale2);
    CreatedRunsAreUnfound(r2, FetchExistingRuns(s, sensor, Requests(r2)), s, sensor, launched, ids);
    var s2 := SubmitRunRequests(again, tickId, stale2, s, sensor, launched).1;
    if |s2| > |s| {
      assert s2[0].runId in ids;
    }
  }

  /**
   The bound above is reached: a stale-only request with nothing stale on the
   first pass is dropped there, and once one of its assets is stale the
   second pass creates its run under the reserved id.
   */
  lemma StaleOnlyRequestRunsOnceStale(sensor: Sensor, launched: RunStatus)
    ensures var req := RunRequest(None, "job", map[], None, true, false);
      var pairs := [("run-1", req)];
      var nothingStale := (r: RunRequest) => {};
      var oneStale := (r: RunRequest) => {"asset"};
      var s := SubmitRunRequests(pairs, "7", nothingStale, [], sensor, launched).1;
      var s2 := SubmitRunRequests(pairs, "7", oneStale, s, sensor, launched).1;
      && s == []
      && |s2| == 1 && s2[0].runId == "run-1"
      && NewlyKeptIds(pairs, "7", nothingStale, oneStale) == {"run-1"}
  {
    var req := RunRequest(None, "job", map[], None, true, false);
    var pairs := [("run-1", req)];
    var nothingStale := (r: RunRequest) => {};
    var oneStale := (r: RunRequest) => {"asset"};
    assert pairs[1..] == [];
    var r1 := ResolveRunRequests(pairs, "7", nothingStale);
    assert r1 == [];
    var s := SubmitRunRequests(pairs, "7", nothingStale, [], sensor, launched).1;
    assert s == [] by {
      assert SubmitEach(r1, FetchExistingRuns([], sensor, Requests(r1)), [], sensor, launched) == ([], []);
    }
    var r2 := ResolveRunRequests(pairs, "7", oneStale);
    assert |r2| == 1 && r2[0].0 == "run-1" && !r2[0].1.requiresBackfill && r2[0].1.runKey == None;
    var e := FetchExistingRuns(s, sensor, Requests(r2));
    assert e == map[] by {
      assert RequestedRunKeys(Requests(r2)) == [];
    }
    var last := SubmitOne(e, [], sensor, launched, r2[0]);
    assert FoundRun(e, [], "run-1", r2[0].1).None?;
    assert |last.1| == 1 && last.1[0].runId == "run-1";
    assert SubmitEach(r2, e, s, sensor, launched) == ([last.0], last.1) by {
      assert r2[..0] == [];
      assert SubmitEach(r2[..0], e, s, sensor, launched) == ([], []);
      assert SubmitOne(e, s, sensor, launched, r2[|r2| - 1]) == last;
      assert [] + [last.0] == [last.0];
    }
    assert NewlyKeptIds(pairs, "7", nothingStale, oneStale) == {"run-1"} by {
      assert pairs[0] in pairs;
    }
  }
}

=== FILE: tick_selection.dfy ===
/**
 Tick storage for one sensor and the choice of the tick a sensor evaluates:
 resume an interrupted tick, retry a failed one, or start afresh.
 */
module TickSelection {
  import opened Records

  /** One sensor's ticks as stored: a tick's id is its index and the newest is last. */
  type TickStore = seq<TickData>

  /** Stores a new tick under the next id. */
  function CreateTick(store: TickStore, data: TickData): (r: (Tick, TickStore))
    ensures r.0.id == |store| && r.0.data == data
    ensures r.1 == store + [data] && r.1[r.0.id] == data
  {
    (Tick(|store|, data), store + [data])
  }

  /** Overwrites a stored tick; an id that is not stored changes nothing. */
  function UpdateTick(store: TickStore, t: Tick): (r: TickStore)
    ensures |r| == |store|
    ensures forall i :: 0 <= i < |r| ==> r[i] == (if i == t.id then t.data else store[i])
  {
    if t.id < |store| then store[t.id := t.data] else store
  }

  /** The most recent tick, if any. */
  function LatestTick(store: TickStore): (r: Option<Tick>)
    ensures r.Some? <==> |store| > 0
    ensures r.Some? ==> r.value.id == |store| - 1 && r.value.data == store[|store| - 1]
  {
    if |store| == 0 then None else Some(Tick(|store| - 1, store[|store| - 1]))
  }

  /** A brand-new STARTED tick at the evaluation time. */
  function FreshTick(sensor: Sensor, now: nat): TickData {
    TickData(sensor.name, Started, now, None, [], [], None, None, None, [], 0, [], [], [])
  }

  /**
   The tick that may have been interrupted: none when the last tick is known
   to have succeeded, the latest stored tick otherwise.
   */
  function PreviousTick(store: TickStore, data: Option<SensorData>): Option<Tick> {
    if data.Some? && IsSetNum(data.value.lastTickSuccessTimestamp) then None
    else LatestTick(store)
  }

  /** An interrupted STARTED tick is resumed when it still has run requests to submit and is at most a day old. */
  predicate CanResume(prev: TickData, now: nat) {
    && prev.status == Started
    && now - prev.timestamp <= MaxTimeToResumeTickSeconds
    && |Unsubmitted(prev)| > 0
  }

  /** A FAILURE tick is retried while it has run requests to submit and has failed at most once. */
  predicate CanRetry(prev: TickData) {
    && prev.status == Failure
    && prev.failureCount <= MaxFailureResubmissionRetries
    && |Unsubmitted(prev)| > 0
  }

  /** The retried copy of a failed tick: STARTED again at `now`, error and end time cleared. */
  function RetriedTick(prev: TickData, now: nat, clock: nat): TickData {
    WithStatus(prev, Started, None, Some(now), None, clock)
  }

  /**
   Chooses the tick to evaluate at time `now` and returns it with the updated
   store. `clock` is the time read when a dangling tick is closed as SKIPPED.
   */
  function GetEvaluationTick(store: TickStore, sensor: Sensor, data: Option<SensorData>,
                             now: nat, clock: nat): (r: (Tick, TickStore))
    ensures r.0.data.status == Started
    ensures r.0.id == |r.1| - 1 && r.1[r.0.id] == r.0.data
    ensures var prev := PreviousTick(store, data);
      if prev.Some? && CanResume(prev.value.data, now) then
        r == (prev.value, store)
      else if prev.Some? && prev.value.data.status == Started then
        r.1 == store[prev.value.id := WithStatus(prev.value.data, Skipped, None, None, None, clock)]
               + [FreshTick(sensor, now)]
      else if prev.Some? && CanRetry(prev.value.data) then
        r.1 == store + [RetriedTick(prev.value.data, now, clock)]
      else
        r.1 == store + [FreshTick(sensor, now)]
  {
    var prev := PreviousTick(store, data);
    if prev.Some? && prev.value.data.status == Started then
      if now - prev.value.data.timestamp <= MaxTimeToResumeTickSeconds && |Unsubmitted(prev.value.data)| > 0 then
        (prev.value, store)
      else
        var closed := prev.value.(data := WithStatus(prev.value.data, Skipped, None, None, None, clock));
        CreateTick(UpdateTick(store, closed), FreshTick(sensor, now))
    else if prev.Some? && prev.value.data.status == Failure
            && prev.value.data.failureCount <= MaxFailureResubmissionRetries
            && |Unsubmitted(prev.value.data)| > 0 then
      CreateTick(store, RetriedTick(prev.value.data, now, clock))
    else
      CreateTick(store, FreshTick(sensor, now))
  }

  /** Before a tick is chosen, every stored tick but the newest is finished. */
  predicate OnlyLatestMayBeStarted(store: TickStore) {
    forall i :: 0 <= i < |store| - 1 ==> IsFinished(store[i].status)
  }

  /** A recorded success time means the newest stored tick is finished. */
  predicate SuccessMeansFinished(store: TickStore, data: Option<SensorData>) {
    data.Some? && IsSetNum(data.value.lastTickSuccessTimestamp) && |store| > 0
    ==> IsFinished(store[|store| - 1].status)
  }

  /**
   Choosing a tick never leaves a dangling STARTED tick behind: afterwards the
   chosen (newest) tick is the only one that may be STARTED.
   */
  lemma NoDanglingStartedTicks(store: TickStore, sensor: Sensor, data: Option<SensorData>, now: nat, clock: nat)
    requires OnlyLatestMayBeStarted(store) && SuccessMeansFinished(store, data)
    ensures OnlyLatestMayBeStarted(GetEvaluationTick(store, sensor, data, now, clock).1)
  {
    var r := GetEvaluationTick(store, sensor, data, now, clock);
    var prev := PreviousTick(store, data);
    if prev.Some? && CanResume(prev.value.data, now) {
      assert r.1 == store;
    } else {
      assert |r.1| == |store| + 1;
      forall i | 0 <= i < |r.1| - 1
        ensures IsFinished(r.1[i].status)
      {
        if i < |store| - 1 {
          assert r.1[i] == store[i];
        } else {
          assert i == |store| - 1;
          if data.Some? && IsSetNum(data.value.lastTickSuccessTimestamp) {
            assert r.1[i] == store[i];
          } else {
            assert prev == LatestTick(store);
          }
        }
      }
    }
  }

  /**
   The chosen tick carries unsubmitted run requests exactly when an interrupted
   tick is resumed or a failed tick retried, and a retried tick carries exactly
   the failed tick's outstanding work; a fresh tick has none.
   */
  lemma {:induction false} EvaluationTickWork(store: TickStore, sensor: Sensor, data: Option<SensorData>, now: nat, clock: nat)
    ensures var r := GetEvaluationTick(store, sensor, data, now, clock);
      var prev := PreviousTick(store, data);
      && (|Unsubmitted(r.0.data)| > 0
          <==> prev.Some? && (CanResume(prev.value.data, now) || CanRetry(prev.value.data)))
      && (prev.Some? && !CanResume(prev.value.data, now) && CanRetry(prev.value.data)
          ==> Unsubmitted(r.0.data) == Unsubmitted(prev.value.data))
  {
    var r := GetEvaluationTick(store, sensor, data, now, clock);
    var prev := PreviousTick(store, data);
    assert Unsubmitted(FreshTick(sensor, now)) == [];
    if prev.Some? && !CanResume(prev.value.data, now) && prev.value.data.status != Started && CanRetry(prev.value.data) {
      var t := RetriedTick(prev.value.data, now, clock);
      assert t.runIds == prev.value.data.runIds;
      assert t.reservedRunIds == prev.value.data.reservedRunIds;
      assert t.runRequests == prev.value.data.runRequests;
    }
  }

  /**
   Choosing a tick rewrites no stored tick except the previous one, which only
   moves from STARTED to SKIPPED; the store grows by at most the new tick.
   */
  lemma KeepsTickHistory(store: TickStore, sensor: Sensor, data: Option<SensorData>, now: nat, clock: nat)
    ensures var r := GetEvaluationTick(store, sensor, data, now, clock);
      && |store| <= |r.1| <= |store| + 1
      && forall i :: 0 <= i < |store| ==>
           r.1[i] == store[i]
           || (i == |store| - 1 && store[i].status == Started
               && r.1[i] == WithStatus(store[i], Skipped, None, None, None, clock))
  {
  }
}
